=== FILE: README.md ===
# STM32MP1 BL2 platform setup, modelled in Dafny

This project models the platform part of the second boot stage (BL2) of
Trusted Firmware-A on the STM32MP1: `plat/st/stm32mp1/bl2_plat_setup.c`.
That file is made of five routines, and each one has a Dafny counterpart.

- `print_reset_reason` is the reset-cause decoder in module `ResetReason`.
  - The value of RCC_MP_RSTSCLRR is modelled as the set of recognised flags plus one boolean for "some other bit is set".
  - `Classify` is the decoder's if-chain.
  - `Report` gives the severity and the cause of the line it logs.
  - An independent reference, "the eligible flag of least rank", is proved equal to the chain.
- `bl2_el3_early_platform_setup`, `bl2_platform_setup` and `bl2_el3_plat_arch_setup` form the bring-up sequencer in module `BootSequence`.
  - Each routine is a pure function. Its input is the record of what the hardware, the device tree and the drivers answer (`Hw`).
  - Its output is a `Run`: the trace of events it produces and whether the stage carries on or halts (`Continue` or `Fatal(cause)`).
  - The address map it declares before turning on the MMU lives in module `MemoryMap`.
  - Module `BootSequenceProofs` relates the traces to independent descriptions:
    - the phase list;
    - the backup-domain protocol;
    - a write-through replay of the register accesses;
    - the split between fatal and non-fatal outcomes.
- `bl2_plat_handle_post_image_load` of the OP-TEE build is module `PostLoad`.
  - It is an update of the loader's descriptor registry, a map keyed by image id.
  - The OP-TEE header parser is a function parameter.

Module `Common` holds what the others share:
- 32-bit unsigned wrap-around (`U32`); BL2 runs in AArch32, so `uintptr_t` is 32 bits wide;
- the log levels;
- the platform constants, which stay symbolic.

## Model

| member | source | states |
|---|---|---|
| ResetReason.Classify | qca/src/atf/arm-trusted-firmware/plat/st/stm32mp1/bl2_plat_setup.c:33-116 | "unknown" exactly for a zero register and "unidentified" exactly for a nonzero one with no recognised flag; with PADRSTF clear, STDBYRSTF gives STANDBY exit and otherwise CSTDBYRSTF gives CSTANDBY exit; with PADRSTF set, neither standby cause is reported; MCSYSRST is a system reset with PADRSTF and a local one without; the flag of a reported cause is always set |
| ResetReason.Report | qca/src/atf/arm-trusted-firmware/plat/st/stm32mp1/bl2_plat_setup.c:37-115 | exactly one line per value, never a halt: a warning exactly for zero, an error exactly for "unidentified", never a notice |
| ResetReason.ClassifyIsFirstMatch | qca/src/atf/arm-trusted-firmware/plat/st/stm32mp1/bl2_plat_setup.c:44-113 | the chain reports the cause of the eligible flag of least rank in the order STDBY, CSTDBY, POR, BOR, MCSYS, MPSYS, HCSS, IWDG1, IWDG2, MPUP0, MPUP1, PAD, VCORE; the standby flags are eligible only while PADRSTF is clear |
| ResetReason.NoEligibleFlag | qca/src/atf/arm-trusted-firmware/plat/st/stm32mp1/bl2_plat_setup.c:37-115 | "unknown" or "unidentified" is reported exactly when no flag is eligible |
| ResetReason.SingleFlag | qca/src/atf/arm-trusted-firmware/plat/st/stm32mp1/bl2_plat_setup.c:44-113 | a register with one recognised bit set is reported as that bit's cause |
| ResetReason.StandbyIgnoredUnderPad | qca/src/atf/arm-trusted-firmware/plat/st/stm32mp1/bl2_plat_setup.c:44-54 | while PADRSTF is set, clearing both standby flags does not change the report |
| ResetReason.StandbyDominates | qca/src/atf/arm-trusted-firmware/plat/st/stm32mp1/bl2_plat_setup.c:44-48 | while PADRSTF is clear, STDBYRSTF gives STANDBY exit whatever other flags are set |
| MemoryMap.SecureDdrBase | qca/src/atf/arm-trusted-firmware/plat/st/stm32mp1/bl2_plat_setup.c:166-170 | the carve-out base is a 32-bit value; when DRAM holds both reserved areas and the carve-out base fits in 32 bits, the carve-out ends exactly where the shared memory at the top of DRAM begins, a DRAM ending at 2^32 included |
| MemoryMap.FullWindowCarveOut | qca/src/atf/arm-trusted-firmware/plat/st/stm32mp1/bl2_plat_setup.c:166-170 | a DRAM that ends exactly at 2^32 and holds nonempty reserved areas puts the carve-out at 2^32 minus both reserved sizes: the 32-bit sum wraps to 0 and the subtractions bring it back |
| MemoryMap.RegionsLayout | qca/src/atf/arm-trusted-firmware/plat/st/stm32mp1/bl2_plat_setup.c:160-192 | five regions with OP-TEE and four without, all flat-mapped; code first and the only executable region; device tree last; the non-secure DDR region is declared in both builds and is the only non-secure one; without OP-TEE nothing secure is writable and BL32 is mapped; with OP-TEE exactly the carve-out and the OP-TEE area are secure and writable |
| MemoryMap.NonSecureDdrSpansCarveOut | qca/src/atf/arm-trusted-firmware/plat/st/stm32mp1/bl2_plat_setup.c:166-187 | whenever DRAM holds both reserved areas, is at most its maximum size and the carve-out base fits in 32 bits (a DRAM ending at 2^32 included), the non-secure DDR region contains the secure carve-out: the map does not keep them apart |
| MemoryMap.CarveOutBelowDdrOnSmallDram | qca/src/atf/arm-trusted-firmware/plat/st/stm32mp1/bl2_plat_setup.c:166-170 | a DRAM smaller than both reserved areas puts the carve-out below STM32MP_DDR_BASE |
| BootSequence.EarlyPlatformSetup | qca/src/atf/arm-trusted-firmware/plat/st/stm32mp1/bl2_plat_setup.c:118-124 | the boot-context address recorded is `arg0`, and the other arguments change nothing; the only step is saving that address |
| BootSequence.PlatformSetup | qca/src/atf/arm-trusted-firmware/plat/st/stm32mp1/bl2_plat_setup.c:126-147 | DDR is always probed; halts exactly when the DDR probe is negative, with that code, the halt being the last step and the ERROR line carrying that code the step right before it; the PMIC is set up exactly when its status is positive; the INFO line names OP-TEE exactly in the OP-TEE build with DDR up and SP_MIN exactly in the other build with DDR up; the TZC-400 is set up exactly in the OP-TEE build with DDR up |
| BootSequence.PmicBeforeDdr | qca/src/atf/arm-trusted-firmware/plat/st/stm32mp1/bl2_plat_setup.c:126-147 | DDR is probed exactly once and the PMIC set up at most once; a PMIC that is set up is set up before the probe, and every other step (the ERROR line and halt, the INFO line, the TZC-400 setup) comes after it |
| BootSequence.ProbeOnce | qca/src/atf/arm-trusted-firmware/plat/st/stm32mp1/bl2_plat_setup.c:130-147 | in a trace made of an optional PMIC step, the DDR probe, and steps with neither, the probe occurs once, the PMIC step at most once and before it, and everything else after it |
| BootSequence.FirewallAfterDdr | qca/src/atf/arm-trusted-firmware/plat/st/stm32mp1/bl2_plat_setup.c:134-143 | the TZC-400 is set up only after the DDR probe; in the OP-TEE build with DDR up, the trace ends with the INFO line naming OP-TEE and then the TZC-400 setup |
| BootSequence.ConsoleSetup | qca/src/atf/arm-trusted-firmware/plat/st/stm32mp1/bl2_plat_setup.c:239-269 | the console halts the stage exactly when it is configured and the driver registration returns 0 |
| BootSequence.ConsoleSteps | qca/src/atf/arm-trusted-firmware/plat/st/stm32mp1/bl2_plat_setup.c:239-269 | a skipped console touches at most the pins, and nothing when the device tree names no usable UART; a configured one does pins, clock, reset assert, 2 us, deassert, 1 ms, then registration; after registration comes the halt if it returned 0, otherwise the board model at NOTICE level exactly when the device tree names one; a halt is the last step and occurs nowhere else |
| BootSequence.ArchSetup | qca/src/atf/arm-trusted-firmware/plat/st/stm32mp1/bl2_plat_setup.c:149-284 | the fatal causes and their conditions, each as an if-and-only-if: invalid device tree, clock probe failed, clock init failed, console registration failed; the stage carries on exactly when none applies |
| BootSequenceProofs.PhaseOrder | qca/src/atf/arm-trusted-firmware/plat/st/stm32mp1/bl2_plat_setup.c:160-283 | the phase boundaries (MMU, device tree, DBP set and observed, RTC source read, MCKPROT cleared, delay timer, clock probe and init, boot interface saved, security setup, reset-cause report of the register read, I/O setup) are all of the phase list when the stage carries on and a prefix of it when it halts, so each occurs at most once and in that order |
| BootSequence.MapAll | qca/src/atf/arm-trusted-firmware/plat/st/stm32mp1/bl2_plat_setup.c:160-192 | one declaration per region, and the i-th declaration is of the i-th region |
| BootSequenceProofs.TranslationFirst | qca/src/atf/arm-trusted-firmware/plat/st/stm32mp1/bl2_plat_setup.c:160-198 | the trace opens with every region declaration, the MMU activation and the device-tree check, and no later step declares a region or touches the MMU |
| BootSequenceProofs.MmuBeforeDeviceTree | qca/src/atf/arm-trusted-firmware/plat/st/stm32mp1/bl2_plat_setup.c:160-196 | the regions are declared in order at the head of the trace, then the MMU goes on, then the device tree is opened |
| BootSequenceProofs.BackupDomainOrder | qca/src/atf/arm-trusted-firmware/plat/st/stm32mp1/bl2_plat_setup.c:203-224 | the backup-domain accesses of the whole trace are those of the backup-domain setup and none if the device tree halts the stage; past the device tree they follow the protocol: DBP set and observed first, only RCC_BDCR after that, the RTC source read before any other RCC_BDCR access, a VSWRST pulse exactly on a cold boot and always as the last three steps (so at most one), and only the RTC source read on a warm boot |
| BootSequenceProofs.BackupDomainSetupIsProtocol | qca/src/atf/arm-trusted-firmware/plat/st/stm32mp1/bl2_plat_setup.c:203-224 | the backup-domain setup follows that protocol on both cold and warm boots |
| BootSequenceProofs.ColdBootProtocol | qca/src/atf/arm-trusted-firmware/plat/st/stm32mp1/bl2_plat_setup.c:203-224 | the cold-boot sequence (DBP set and observed, RTC source read, one VSWRST pulse) meets every clause of the protocol |
| BootSequenceProofs.WarmBootLeavesBdcr | qca/src/atf/arm-trusted-firmware/plat/st/stm32mp1/bl2_plat_setup.c:214-224 | on a warm boot the only access to RCC_BDCR is the read of the RTC source |
| BootSequenceProofs.RegistersAfterArchSetup | qca/src/atf/arm-trusted-firmware/plat/st/stm32mp1/bl2_plat_setup.c:208-227 | from any register state every busy-wait finds its bit set; past the device tree DBP ends set and MCKPROT clear; VSWRST ends clear on a cold boot and untouched on a warm one; a halt at the device tree changes nothing |
| BootSequenceProofs.FatalHalts | qca/src/atf/arm-trusted-firmware/plat/st/stm32mp1/bl2_plat_setup.c:196-283 | a fatal outcome is exactly a trace that ends in the halt, which occurs nowhere else; a halted stage never reaches the security setup, the reset-cause report or the I/O setup |
| BootSequenceProofs.ContinueEndsWithLateSteps | qca/src/atf/arm-trusted-firmware/plat/st/stm32mp1/bl2_plat_setup.c:271-283 | a stage that carries on always ends with the security setup, the reset-cause report and the I/O setup |
| BootSequenceProofs.ConsoleAfterClocks | qca/src/atf/arm-trusted-firmware/plat/st/stm32mp1/bl2_plat_setup.c:229-264 | every console step (pins, UART clock, reset pulse with its `udelay` and `mdelay`, registration, board model) comes after the delay timer and the clock initialisation, and before the boot interface is saved |
| BootSequenceProofs.ConsoleBroughtUp | qca/src/atf/arm-trusted-firmware/plat/st/stm32mp1/bl2_plat_setup.c:239-269 | once the clocks are up, the console steps of the whole trace are exactly those of the console bring-up, less its halt when registration fails; a stage that halts before the clocks has none |
| BootSequenceProofs.ConsoleSetupSteps | qca/src/atf/arm-trusted-firmware/plat/st/stm32mp1/bl2_plat_setup.c:239-269 | the console steps of the console bring-up are all of its trace except a closing halt |
| BootSequenceProofs.ConsoleWindow | qca/src/atf/arm-trusted-firmware/plat/st/stm32mp1/bl2_plat_setup.c:229-271 | in any trace made of a part ending with the delay timer, clock probe and clock initialisation and free of console steps and saves, a part with no saves, and a part with no console steps, the console steps come after the clock initialisation and before any save |
| BootSequenceProofs.NoUartAccessWithoutConsole | qca/src/atf/arm-trusted-firmware/plat/st/stm32mp1/bl2_plat_setup.c:239-250 | without a configured console nothing enables the UART clock, pulses its reset or registers the driver |
| BootSequenceProofs.ConsoleSkipIsBenign | qca/src/atf/arm-trusted-firmware/plat/st/stm32mp1/bl2_plat_setup.c:239-283 | a skipped console is not fatal: past the clocks the stage carries on to the I/O setup, touching no UART |
| BootSequenceProofs.SaveFailureIsLogged | qca/src/atf/arm-trusted-firmware/plat/st/stm32mp1/bl2_plat_setup.c:273-277 | failing to save the boot interface never changes the outcome, and in a stage that carries on the error is logged exactly when saving failed |
| BootSequenceProofs.BootInterfaceFromHandOff | qca/src/atf/arm-trusted-firmware/plat/st/stm32mp1/bl2_plat_setup.c:273-274 | the boot interface saved is the one recorded in the boot context at the address the early setup received in `arg0` |
| PostLoad.PostImageLoad | qca/src/atf/arm-trusted-firmware/plat/st/stm32mp1/bl2_plat_setup.c:291-349 | halts on a missing descriptor exactly when one it needs is missing, naming a missing one; halts on the header exactly for BL32 with a nonzero parse error; when it returns it returns 0, keeps the same descriptors and rewrites only the ones it owns (BL32, pager and paged for BL32; BL32 for BL33; none otherwise); for BL32 the pager and paged descriptors get the areas the header parser returned and nothing else changes in them, OP-TEE enters at the returned pager base with the returned paged base in arg0, zero in arg1 and arg2, and the rest of its entry point as the parser returned it; for BL33, BL32's return address is BL33's entry point |
| PostLoad.LoadedBl32 | qca/src/atf/arm-trusted-firmware/plat/st/stm32mp1/bl2_plat_setup.c:302-334 | halts exactly when the pager or paged descriptor is missing or the header does not parse; otherwise OP-TEE enters at the pager's base with the paged base in arg0 and zero in arg1 and arg2, both bases being the ones the header parser returned; the pager and paged descriptors hold the parser's areas and keep their entry-point information; the return address and further arguments are the parser's, and BL32's image information is untouched |
| PostLoad.LinkedBl33 | qca/src/atf/arm-trusted-firmware/plat/st/stm32mp1/bl2_plat_setup.c:337-341 | halts exactly when BL32 has no descriptor; otherwise BL32's return address is BL33's entry point |
| PostLoad.PagedBaseIsCarveOut | qca/src/atf/arm-trusted-firmware/plat/st/stm32mp1/bl2_plat_setup.c:313-316 | the paged load address, computed with the parenthesised 32-bit arithmetic, equals the base of the secure carve-out the address map declares |
| PostLoad.ParserSeesLoadAreas | qca/src/atf/arm-trusted-firmware/plat/st/stm32mp1/bl2_plat_setup.c:302-322 | the parser is given BL32's entry point at its load address, the pager area at STM32MP_OPTEE_BASE with STM32MP_OPTEE_SIZE, and the paged area at the carve-out with STM32MP_DDR_S_SIZE |
| PostLoad.LoadAreasAreMapped | qca/src/atf/arm-trusted-firmware/plat/st/stm32mp1/bl2_plat_setup.c:309-318 | both load areas coincide with a secure read-write region of the OP-TEE build's address map |
| PostLoad.FixedLayoutHandOff | qca/src/atf/arm-trusted-firmware/plat/st/stm32mp1/bl2_plat_setup.c:320-334 | with a header that moves neither area, OP-TEE enters at STM32MP_OPTEE_BASE with the carve-out base in arg0, and its return address is left unchanged |
| PostLoad.Bl32ThenBl33 | qca/src/atf/arm-trusted-firmware/plat/st/stm32mp1/bl2_plat_setup.c:302-341 | handling BL32 and then BL33 leaves OP-TEE entering at its pager with the paged part in arg0, zero in arg1 and arg2, and returning into BL33, with BL33's own descriptor unchanged |
| PostLoad.Bl33OnlyLinks | qca/src/atf/arm-trusted-firmware/plat/st/stm32mp1/bl2_plat_setup.c:337-341 | for BL33 the only change anywhere is BL32's return address |
| PostLoad.Bl33Idempotent | qca/src/atf/arm-trusted-firmware/plat/st/stm32mp1/bl2_plat_setup.c:337-341 | handling BL33 twice is the same as handling it once |
| PostLoad.OtherImagesUntouched | qca/src/atf/arm-trusted-firmware/plat/st/stm32mp1/bl2_plat_setup.c:343-345 | for the pager, the paged part and every other image, an existing descriptor is left alone and 0 is returned; a missing one halts |

## Left out

- Memory-mapped I/O is abstracted to three control bits (DBP, VSWRST, MCKPROT) and the events that set, clear or poll them. Register addresses and bit positions come from headers that are not part of this model.
- Each busy-wait is one `WaitSet` event. `RegistersAfterArchSetup` shows that each wait finds its bit already set, assuming writes take effect at once; real polling latency is not modelled.
- `udelay`/`mdelay` are events carrying their durations. No clock is modelled.
- Foreign calls are results in the `Hw` input record. Their internals are not part of this model:
  - PMIC, DDR probe and DDR size;
  - device-tree checks and queries, and the pin control;
  - the clock probe, init and rate;
  - the console driver, and saving the boot interface;
  - the security and I/O setups.
- `stm32mp1_security_setup`, `stm32mp1_arch_security_setup` and `stm32mp_io_setup` are single events. Their effects are not modelled.
- The text of log lines is not modelled; a log is an event with a level and a message kind.
  - The reset-cause report is the event `ReportResetReason(rstsr)`, whose line is `ResetReason.Report(rstsr)`.
  - The extra INFO line that prints the raw register value in hexadecimal is not modelled.
- The boot context is read through `Hw.contextAt`, a function from address to context. Memory contents are not otherwise modelled.
- `dt_get_ddr_size()` is called by both the address map and the post-load hook. The model uses one `ddrSize` for both, assuming the device tree does not change in between.
- In which order the generic BL2 code calls these entry points is not part of this model. Each entry point is modelled on its own; `BootInterfaceFromHandOff` links the early setup to the architecture setup.
- The `assert`s in the post-load hook are modelled as halts, as in a debug build. A release build compiles them out and would dereference a null descriptor instead.
- Only the first three entry arguments are named. The rest are carried through unchanged in `Args.others`.
- The post-load hook of builds without AARCH32_SP_OPTEE is not part of this model, since it is not defined in this file.
- The C casts of the UART clock and reset line to unsigned types are identity casts: both values are checked non-negative first.
- The declared regions are not checked for overlap. The non-secure DDR region contains the secure carve-out (`NonSecureDdrSpansCarveOut`).
- A header parse error in the post-load hook halts the stage; it is never returned. The hook therefore returns 0 whenever it returns.
- Peripheral bring-up (PMIC, DDR) and the architecture setup are separate entry points. Their relative order is decided by the caller.

=== FILE: boot_sequence.dfy ===
/**
 * The BL2 platform bring-up sequencer of the STM32MP1: the three platform entry
 * points, modelled as pure functions from the results of the hardware and driver
 * calls they make (an `Hw` record) to the trace of what they do and whether the
 * boot stage carries on or halts.
 */
module BootSequence {
  import opened Common
  import MemoryMap
  import ResetReason

  // ---------------------------------------------------------------------------
  // Registers
  // ---------------------------------------------------------------------------

  /** The control bits this stage writes or busy-waits on. */
  datatype Field =
    | Dbp      // PWR_CR1.DBP: backup-domain write protection disabled
    | Vswrst   // RCC_BDCR.VSWRST: backup-domain software reset
    | Mckprot  // RCC_TZCR.MCKPROT: master clock protection

  datatype Reg = PwrCr1 | RccBdcr | RccTzcr

  function RegOf(f: Field): Reg {
    match f
    case Dbp => PwrCr1
    case Vswrst => RccBdcr
    case Mckprot => RccTzcr
  }

  // ---------------------------------------------------------------------------
  // Events and outcomes
  // ---------------------------------------------------------------------------

  datatype Msg =
    | DdrInitError(code: int)
    | OpteeSetup
    | SpMinSetup
    | BoardModel(model: string)
    | SaveBootInterfaceFailed

  /** What the boot stage does, one step at a time. */
  datatype Event =
    | SaveBootCtx(addr: nat)            // stm32mp_save_boot_ctx_address
    | InitPmic
    | DdrProbe
    | TzcSecuritySetup                  // stm32mp1_security_setup (OP-TEE build)
    | MapRegion(region: MemoryMap.Region)
    | ConfigureMmu
    | DtOpenAndCheck
    | SetBit(field: Field)              // mmio_setbits_32
    | WaitSet(field: Field)             // busy-wait until the bit reads as set
    | ClearBit(field: Field)            // mmio_clrbits_32
    | ReadRtcSrc                        // read of RCC_BDCR.RTCSRC
    | DelayTimerInit
    | ClkProbe
    | ClkInit
    | SetStdoutPinctrl
    | ClkEnable(clock: nat)
    | ResetAssert(line: nat)
    | UDelay(us: nat)
    | ResetDeassert(line: nat)
    | MDelay(ms: nat)
    | ConsoleRegister(base: nat, clkRate: nat, baudrate: nat)
    | SaveBootInterface(itf: nat, instance: nat)
    | ArchSecuritySetup
    | ReportResetReason(rstsr: ResetReason.Rstsr)  // print_reset_reason; its log line is ResetReason.Report(rstsr)
    | IoSetup
    | Log(level: Level, msg: Msg)
    | Panic

  datatype FatalCause =
    | DdrProbeFailed(code: int)
    | DtInvalid
    | ClkProbeFailed
    | ClkInitFailed
    | ConsoleRegisterFailed

  datatype Outcome = Continue | Fatal(cause: FatalCause)

  /** The events an entry point produced and how it ended. */
  datatype Run = Run(trace: seq<Event>, outcome: Outcome)

  // ---------------------------------------------------------------------------
  // Inputs: what the hardware, the device tree and the drivers answer
  // ---------------------------------------------------------------------------

  /** The answer of `dt_get_stdout_uart_info`. */
  datatype UartInfo = UartInfo(base: nat, clock: int, reset: int, status: nat)

  /** The boot context the first stage leaves in memory. */
  datatype BootContext = BootContext(interfaceSelected: nat, interfaceInstance: nat)

  datatype Hw = Hw(
    pmicStatus: int,                 // dt_pmic_status
    ddrProbe: int,                   // stm32mp1_ddr_probe
    ddrSize: nat,                    // dt_get_ddr_size
    dtOpen: int,                     // dt_open_and_check
    rtcSrc: nat,                     // RCC_BDCR & RCC_BDCR_RTCSRC_MASK
    clkProbe: int,                   // stm32mp1_clk_probe
    clkInit: int,                    // stm32mp1_clk_init
    uartInfoResult: int,             // dt_get_stdout_uart_info
    uart: UartInfo,
    pinctrl: int,                    // dt_set_stdout_pinctrl
    uartClkRate: nat,                // stm32mp_clk_get_rate of the UART clock
    consoleRegister: int,            // console_stm32_register
    boardModel: Option<string>,      // dt_get_board_model
    contextAt: nat -> BootContext,   // memory holding the first stage's boot context
    saveBootItf: int,                // stm32_save_boot_interface
    rstsr: ResetReason.Rstsr         // RCC_MP_RSTSCLRR
  )

  /** State carried from the early setup to the architecture setup. */
  datatype Bl2State = Bl2State(bootCtxAddr: nat)

  // ---------------------------------------------------------------------------
  // bl2_el3_early_platform_setup
  // ---------------------------------------------------------------------------

  /** Records the boot-context address handed over in `arg0`; the other arguments are unused. */
  function EarlyPlatformSetup(arg0: nat, arg1: nat, arg2: nat, arg3: nat): (r: (Bl2State, seq<Event>))
    ensures r.0.bootCtxAddr == arg0
    ensures r == EarlyPlatformSetup(arg0, 0, 0, 0)
    ensures r.1 == [SaveBootCtx(r.0.bootCtxAddr)]
  {
    (Bl2State(arg0), [SaveBootCtx(arg0)])
  }

  // ---------------------------------------------------------------------------
  // bl2_platform_setup
  // ---------------------------------------------------------------------------

  /** PMIC, then DDR; a failed DDR probe halts; with OP-TEE the TZC-400 is set up after DDR. */
  function PlatformSetup(cfg: Config, hw: Hw): (r: Run)
    ensures r.outcome.Fatal? <==> hw.ddrProbe < 0
    ensures r.outcome.Fatal? ==> r.outcome.cause == DdrProbeFailed(hw.ddrProbe)
    ensures InitPmic in r.trace <==> hw.pmicStatus > 0
    ensures TzcSecuritySetup in r.trace <==> cfg.optee && hw.ddrProbe >= 0
    ensures r.outcome.Fatal? <==> |r.trace| > 0 && r.trace[|r.trace| - 1] == Panic
    // DDR is always probed; a failed probe logs its error code right before the halt
    ensures DdrProbe in r.trace
    ensures r.outcome.Fatal? ==> |r.trace| >= 2 && r.trace[|r.trace| - 2] == Log(Error, DdrInitError(hw.ddrProbe))
    // the INFO line names the runtime the build sets up, once DDR is up
    ensures Log(Info, OpteeSetup) in r.trace <==> cfg.optee && hw.ddrProbe >= 0
    ensures Log(Info, SpMinSetup) in r.trace <==> !cfg.optee && hw.ddrProbe >= 0
  {
    var probe := (if hw.pmicStatus > 0 then [InitPmic] else []) + [DdrProbe];
    if hw.ddrProbe < 0 then
      Run(probe + [Log(Error, DdrInitError(hw.ddrProbe)), Panic], Fatal(DdrProbeFailed(hw.ddrProbe)))
    else if cfg.optee then
      Run(probe + [Log(Info, OpteeSetup), TzcSecuritySetup], Continue)
    else
      Run(probe + [Log(Info, SpMinSetup)], Continue)
  }

  /**
   * The PMIC comes up at most once, DDR is probed exactly once, and every other
   * step of the platform setup comes after the probe.
   */
  lemma PmicBeforeDdr(cfg: Config, hw: Hw)
    ensures ProbeFirst(PlatformSetup(cfg, hw).trace)
  {
    var pmic := if hw.pmicStatus > 0 then [InitPmic] else [];
    if hw.ddrProbe < 0 {
      ProbeOnce(PlatformSetup(cfg, hw).trace, pmic, [Log(Error, DdrInitError(hw.ddrProbe)), Panic]);
    } else if cfg.optee {
      ProbeOnce(PlatformSetup(cfg, hw).trace, pmic, [Log(Info, OpteeSetup), TzcSecuritySetup]);
    } else {
      ProbeOnce(PlatformSetup(cfg, hw).trace, pmic, [Log(Info, SpMinSetup)]);
    }
  }

  /**
   * In `t`, DDR is probed exactly once and the PMIC set up at most once; the PMIC
   * comes before the probe, and every step other than those two comes after it.
   */
  predicate ProbeFirst(t: seq<Event>) {
    && DdrProbe in t
    && (forall i, j :: 0 <= i < |t| && 0 <= j < |t| && t[i] == DdrProbe && t[j] == DdrProbe ==> i == j)
    && (forall i, j :: 0 <= i < |t| && 0 <= j < |t| && t[i] == InitPmic && t[j] == InitPmic ==> i == j)
    && (forall i, j :: 0 <= i < |t| && 0 <= j < |t| && t[i] == InitPmic && t[j] == DdrProbe ==> i < j)
    && (forall i, j :: 0 <= i < |t| && 0 <= j < |t| && t[i] == DdrProbe && t[j] != InitPmic && t[j] != DdrProbe ==> i < j)
  }

  /** In `pmic + [DdrProbe] + rest`, with no PMIC or DDR step in `rest`, the probe comes first in the sense of `ProbeFirst`. */
  lemma ProbeOnce(t: seq<Event>, pmic: seq<Event>, rest: seq<Event>)
    requires pmic == [] || pmic == [InitPmic]
    requires InitPmic !in rest && DdrProbe !in rest
    requires t == pmic + [DdrProbe] + rest
    ensures ProbeFirst(t)
  {
    assert t[|pmic|] == DdrProbe;
    assert forall k :: |pmic| < k < |t| ==> t[k] == rest[k - |pmic| - 1];
  }

  /**
   * With OP-TEE and DDR up, the INFO line is logged and then the TZC-400 is set
   * up, once, after the DDR probe, as the last step.
   */
  lemma FirewallAfterDdr(cfg: Config, hw: Hw)
    ensures var t := PlatformSetup(cfg, hw).trace;
      forall i, j :: 0 <= i < |t| && 0 <= j < |t| && t[i] == DdrProbe && t[j] == TzcSecuritySetup ==> i < j
    ensures var t := PlatformSetup(cfg, hw).trace;
      cfg.optee && hw.ddrProbe >= 0 ==> |t| >= 2 && t[|t| - 2..] == [Log(Info, OpteeSetup), TzcSecuritySetup]
  {
    PmicBeforeDdr(cfg, hw);
  }

  // ---------------------------------------------------------------------------
  // bl2_el3_plat_arch_setup
  // ---------------------------------------------------------------------------

  /** One `mmap_add_region` call per region, in declaration order: the i-th call declares the i-th region. */
  function MapAll(rs: seq<MemoryMap.Region>): (t: seq<Event>)
    ensures |t| == |rs|
    ensures forall i :: 0 <= i < |rs| ==> t[i] == MapRegion(rs[i])
    decreases |rs|
  {
    if |rs| == 0 then [] else [MapRegion(rs[0])] + MapAll(rs[1..])
  }

  /** Declare the regions, turn on translation, then open the device tree. */
  function AddressMapSetup(c: Consts, cfg: Config, hw: Hw): seq<Event> {
    MapAll(MemoryMap.Regions(c, cfg, hw.ddrSize)) + [ConfigureMmu, DtOpenAndCheck]
  }

  /** The reset pulse on the backup domain. */
  const VswrstPulse: seq<Event> := [SetBit(Vswrst), WaitSet(Vswrst), ClearBit(Vswrst)]

  /** A cold boot is one where no RTC clock source has been selected yet. */
  predicate ColdBoot(hw: Hw) {
    hw.rtcSrc == 0
  }

  /** Lift the backup-domain write protection; on a cold boot, pulse the backup-domain reset. */
  function BackupDomainSetup(hw: Hw): seq<Event> {
    [SetBit(Dbp), WaitSet(Dbp), ReadRtcSrc] + (if ColdBoot(hw) then VswrstPulse else [])
  }

  /** The events up to the clock probe. */
  const ClockStart: seq<Event> := [ClearBit(Mckprot), DelayTimerInit, ClkProbe]

  /** The console is skipped unless the device tree names a usable UART... */
  predicate UartUsable(hw: Hw) {
    hw.uartInfoResult > 0 && hw.uart.status != 0 && hw.uart.clock >= 0 && hw.uart.reset >= 0
  }

  /** ...and its pins can be configured. */
  predicate ConsoleConfigured(hw: Hw) {
    UartUsable(hw) && hw.pinctrl == 0
  }

  /** Events the console bring-up may produce. */
  predicate ConsoleEvent(e: Event) {
    e.SetStdoutPinctrl? || e.ClkEnable? || e.ResetAssert? || e.UDelay? || e.ResetDeassert?
    || e.MDelay? || e.ConsoleRegister? || e == Panic || (e.Log? && e.msg.BoardModel?)
  }

  /** Best-effort console: a missing or unusable UART is skipped; a failed registration halts. */
  function ConsoleSetup(c: Consts, hw: Hw): (r: Run)
    ensures r.outcome.Fatal? <==> ConsoleConfigured(hw) && hw.consoleRegister == 0
    ensures r.outcome.Fatal? ==> r.outcome.cause == ConsoleRegisterFailed
  {
    if !UartUsable(hw) then Run([], Continue)
    else if hw.pinctrl != 0 then Run([SetStdoutPinctrl], Continue)
    else
      var clock := hw.uart.clock as nat;
      var line := hw.uart.reset as nat;
      var registered := [SetStdoutPinctrl, ClkEnable(clock), ResetAssert(line), UDelay(2),
                         ResetDeassert(line), MDelay(1),
                         ConsoleRegister(hw.uart.base, hw.uartClkRate, c.uartBaudrate)];
      if hw.consoleRegister == 0 then
        Run(registered + [Panic], Fatal(ConsoleRegisterFailed))
      else
        match hw.boardModel
        case Some(m) => Run(registered + [Log(Notice, BoardModel(m))], Continue)
        case None => Run(registered, Continue)
  }

  /** The steps of the console bring-up. */
  lemma ConsoleSteps(c: Consts, hw: Hw)
    ensures var r := ConsoleSetup(c, hw);
      && (forall e :: e in r.trace ==> ConsoleEvent(e))
      // a skipped console touches neither the UART clock, its reset line nor the console driver
      && (!ConsoleConfigured(hw) ==> r.trace == [] || r.trace == [SetStdoutPinctrl])
      && (!UartUsable(hw) ==> r.trace == [])
      // a configured console: pins, clock, reset pulse with both waits, then registration
      && (ConsoleConfigured(hw) ==>
            |r.trace| >= 7 &&
            r.trace[..7] == [SetStdoutPinctrl, ClkEnable(hw.uart.clock as nat),
                             ResetAssert(hw.uart.reset as nat), UDelay(2),
                             ResetDeassert(hw.uart.reset as nat), MDelay(1),
                             ConsoleRegister(hw.uart.base, hw.uartClkRate, c.uartBaudrate)])
      // after registration: the halt if it returned 0, otherwise the board model at NOTICE
      // level when the device tree names one
      && (ConsoleConfigured(hw) && hw.consoleRegister == 0 ==> r.trace[7..] == [Panic])
      && (ConsoleConfigured(hw) && hw.consoleRegister != 0 ==>
            r.trace[7..] == match hw.boardModel
                            case Some(m) => [Log(Notice, BoardModel(m))]
                            case None => [])
      // the halt, if any, is the last step and only there
      && (r.outcome.Fatal? <==> |r.trace| > 0 && r.trace[|r.trace| - 1] == Panic)
      && Panic !in r.trace[..if |r.trace| == 0 then 0 else |r.trace| - 1]
  {
  }

  /** Persist the boot interface (failure is only logged), security, reset cause, I/O. */
  function LateSetup(hw: Hw, st: Bl2State): seq<Event> {
    var ctx := hw.contextAt(st.bootCtxAddr);
    [SaveBootInterface(ctx.interfaceSelected, ctx.interfaceInstance)]
    + (if hw.saveBootItf != 0 then [Log(Error, SaveBootInterfaceFailed)] else [])
    + [ArchSecuritySetup, ReportResetReason(hw.rstsr), IoSetup]
  }

  /** The architecture setup, from the first region declaration to the I/O setup. */
  function ArchSetup(c: Consts, cfg: Config, hw: Hw, st: Bl2State): (r: Run)
    ensures r.outcome == Fatal(DtInvalid) <==> hw.dtOpen < 0
    ensures r.outcome == Fatal(ClkProbeFailed) <==> hw.dtOpen >= 0 && hw.clkProbe < 0
    ensures r.outcome == Fatal(ClkInitFailed) <==> hw.dtOpen >= 0 && hw.clkProbe >= 0 && hw.clkInit < 0
    ensures r.outcome == Fatal(ConsoleRegisterFailed) <==>
              hw.dtOpen >= 0 && hw.clkProbe >= 0 && hw.clkInit >= 0 &&
              ConsoleConfigured(hw) && hw.consoleRegister == 0
    ensures r.outcome == Continue <==>
              hw.dtOpen >= 0 && hw.clkProbe >= 0 && hw.clkInit >= 0 &&
              !(ConsoleConfigured(hw) && hw.consoleRegister == 0)
  {
    var mapped := AddressMapSetup(c, cfg, hw);
    if hw.dtOpen < 0 then
      Run(mapped + [Panic], Fatal(DtInvalid))
    else
      var clocks := ClockSetup(c, hw, st);
      Run(mapped + BackupDomainSetup(hw) + ClockStart + clocks.trace, clocks.outcome)
  }

  /** From the verdict of the clock probe: clock init, console, then the late steps. */
  function ClockSetup(c: Consts, hw: Hw, st: Bl2State): Run {
    if hw.clkProbe < 0 then Run([Panic], Fatal(ClkProbeFailed))
    else if hw.clkInit < 0 then Run([ClkInit, Panic], Fatal(ClkInitFailed))
    else
      var console := ConsoleSetup(c, hw);
      Run([ClkInit] + console.trace + (if console.outcome.Fatal? then [] else LateSetup(hw, st)),
          console.outcome)
  }
}

=== FILE: boot_sequence_proofs.dfy ===
/**
 * Properties of the bring-up sequencer that relate its whole trace to an
 * independent description: the phase order, the backup-domain protocol, the
 * register state a write-through replay of the trace reaches, and the split
 * between fatal and non-fatal outcomes.
 */
module BootSequenceProofs {
  import opened Common
  import opened BootSequence
  import MemoryMap
  import ResetReason

  // ---------------------------------------------------------------------------
  // Trace toolkit
  // ---------------------------------------------------------------------------

  /** The events of `t` that `keep` selects, in order. */
  function Filter(t: seq<Event>, keep: EventClass): seq<Event>
    decreases |t|
  {
    if |t| == 0 then []
    else (if Selects(keep, t[0]) then [t[0]] else []) + Filter(t[1..], keep)
  }

  lemma {:induction false} FilterAppend(a: seq<Event>, b: seq<Event>, keep: EventClass)
    ensures Filter(a + b, keep) == Filter(a, keep) + Filter(b, keep)
    decreases |a|
  {
    if |a| == 0 {
      assert a + b == b;
    } else {
      assert (a + b)[0] == a[0];
      assert (a + b)[1..] == a[1..] + b;
      FilterAppend(a[1..], b, keep);
    }
  }

  lemma {:induction false} FilterNone(t: seq<Event>, keep: EventClass)
    requires forall e :: e in t ==> !Selects(keep, e)
    ensures Filter(t, keep) == []
    decreases |t|
  {
    if |t| > 0 {
      assert t[0] in t;
      assert forall e :: e in t[1..] ==> e in t;
      FilterNone(t[1..], keep);
    }
  }

  lemma {:induction false} FilterAll(t: seq<Event>, keep: EventClass)
    requires forall i :: 0 <= i < |t| ==> Selects(keep, t[i])
    ensures Filter(t, keep) == t
    decreases |t|
  {
    if |t| > 0 {
      FilterAll(t[1..], keep);
      assert [t[0]] + t[1..] == t;
    }
  }

  /** An event `keep` selects shows up in the filter. */
  lemma {:induction false} FilterKeeps(t: seq<Event>, keep: EventClass, e: Event)
    requires e in t && Selects(keep, e)
    ensures e in Filter(t, keep)
    decreases |t|
  {
    if t[0] != e {
      assert e in t[1..];
      FilterKeeps(t[1..], keep, e);
    }
  }

  /** Only events of the trace show up in its filter. */
  lemma {:induction false} FilterSubset(t: seq<Event>, keep: EventClass, e: Event)
    requires e in Filter(t, keep)
    ensures e in t
    decreases |t|
  {
    if |t| > 0 && e != t[0] {
      FilterSubset(t[1..], keep, e);
    }
  }

  lemma AppendAssoc(a: seq<Event>, b: seq<Event>, c: seq<Event>)
    ensures a + (b + c) == a + b + c
  {
  }

  lemma PrefixAppend(a: seq<Event>, b: seq<Event>)
    ensures a <= a + b
  {
    assert (a + b)[..|a|] == a;
  }

  lemma SuffixAppend(a: seq<Event>, b: seq<Event>, n: nat)
    requires n <= |b|
    ensures (a + b)[|a + b| - n..] == b[|b| - n..]
  {
  }

  // ---------------------------------------------------------------------------
  // Event classes
  // ---------------------------------------------------------------------------

  /** Steps of the address-map phase. */
  predicate MappingStep(e: Event) {
    e.MapRegion? || e == ConfigureMmu || e == DtOpenAndCheck
  }

  /** Register accesses. */
  predicate BitOp(e: Event) {
    e.SetBit? || e.WaitSet? || e.ClearBit?
  }

  /** Any access to RCC_BDCR. */
  predicate TouchesBdcr(e: Event) {
    e == ReadRtcSrc || (BitOp(e) && RegOf(e.field) == RccBdcr)
  }

  /** The backup-domain protocol: PWR_CR1.DBP and everything on RCC_BDCR. */
  predicate BackupDomainStep(e: Event) {
    TouchesBdcr(e) || (BitOp(e) && e.field == Dbp)
  }

  /** What a configured console does to the UART: its clock, its reset line, its driver. */
  predicate UartAccess(e: Event) {
    e.ClkEnable? || e.ResetAssert? || e.ResetDeassert? || e.ConsoleRegister?
  }

  /** The steps after the console: saving the boot interface and its error, security, reset report, I/O. */
  predicate LateStep(e: Event) {
    e.SaveBootInterface? || e == Log(Error, SaveBootInterfaceFailed) || e.ReportResetReason?
    || e == ArchSecuritySetup || e == IoSetup
  }

  /** The console's own steps: its pins, its clock, the reset pulse and both waits, its driver, the board model. */
  predicate ConsoleStep(e: Event) {
    ConsoleEvent(e) && e != Panic
  }

  /** The phase boundaries of the architecture setup. */
  predicate Milestone(e: Event) {
    match e
    case ConfigureMmu => true
    case DtOpenAndCheck => true
    case SetBit(f) => f == Dbp
    case WaitSet(f) => f == Dbp
    case ReadRtcSrc => true
    case ClearBit(f) => f == Mckprot
    case DelayTimerInit => true
    case ClkProbe => true
    case ClkInit => true
    case SaveBootInterface(_, _) => true
    case ArchSecuritySetup => true
    case ReportResetReason(_) => true
    case IoSetup => true
    case _ => false
  }

  /** The classes of events the properties below pick out of a trace. */
  datatype EventClass = Milestones | BackupDomainSteps | BitOps | MappingSteps | UartAccesses | ConsoleBringUp

  predicate Selects(k: EventClass, e: Event) {
    match k
    case Milestones => Milestone(e)
    case BackupDomainSteps => BackupDomainStep(e)
    case BitOps => BitOp(e)
    case MappingSteps => MappingStep(e)
    case UartAccesses => UartAccess(e)
    case ConsoleBringUp => ConsoleStep(e)
  }

  /** The phase order the architecture setup must follow, for a given boot context and reset-status register. */
  function Phases(ctx: BootContext, rstsr: ResetReason.Rstsr): seq<Event> {
    [ConfigureMmu, DtOpenAndCheck, SetBit(Dbp), WaitSet(Dbp), ReadRtcSrc,
     ClearBit(Mckprot), DelayTimerInit, ClkProbe, ClkInit,
     SaveBootInterface(ctx.interfaceSelected, ctx.interfaceInstance),
     ArchSecuritySetup, ReportResetReason(rstsr), IoSetup]
  }

  /**
   * The backup-domain protocol, stated on the backup-domain steps of a trace: the
   * write protection is lifted and observed first, and only RCC_BDCR is touched
   * after that; the RTC source is read before anything else on RCC_BDCR; a cold
   * boot pulses VSWRST, and a pulse is always the last three steps, so there is
   * at most one; a warm boot only reads RCC_BDCR.
   */
  predicate FollowsBackupProtocol(f: seq<Event>, cold: bool) {
    && |f| >= 2 && f[0] == SetBit(Dbp) && f[1] == WaitSet(Dbp)
    && (forall i :: 2 <= i < |f| ==> TouchesBdcr(f[i]))
    && ReadRtcSrc in f
    && (forall i :: 0 <= i < |f| && TouchesBdcr(f[i]) && f[i] != ReadRtcSrc ==> ReadRtcSrc in f[..i])
    && (SetBit(Vswrst) in f <==> cold)
    && (forall i :: 0 <= i < |f| && f[i] == SetBit(Vswrst) ==> f[i..] == VswrstPulse)
    && (!cold ==> forall i :: 0 <= i < |f| && TouchesBdcr(f[i]) ==> f[i] == ReadRtcSrc)
  }

  // ---------------------------------------------------------------------------
  // Filters of the pieces of the architecture setup
  // ---------------------------------------------------------------------------

  const MapMilestones: seq<Event> := [ConfigureMmu, DtOpenAndCheck]
  const BackupMilestones: seq<Event> := [SetBit(Dbp), WaitSet(Dbp), ReadRtcSrc]

  function LateMilestones(ctx: BootContext, rstsr: ResetReason.Rstsr): seq<Event> {
    [SaveBootInterface(ctx.interfaceSelected, ctx.interfaceInstance), ArchSecuritySetup, ReportResetReason(rstsr), IoSetup]
  }

  /** The phase list, cut where the stages of the architecture setup meet. */
  lemma PhasesSplit(ctx: BootContext, rstsr: ResetReason.Rstsr)
    ensures Phases(ctx, rstsr) == MapMilestones + BackupMilestones + ClockStart + [ClkInit] + LateMilestones(ctx, rstsr)
  {
  }

  lemma AddressMapElements(c: Consts, cfg: Config, hw: Hw)
    ensures forall e :: e in AddressMapSetup(c, cfg, hw) ==> MappingStep(e)
  {
    var maps := MapAll(MemoryMap.Regions(c, cfg, hw.ddrSize));
    assert forall e :: e in maps ==> e.MapRegion?;
  }

  lemma AddressMapFilter(c: Consts, cfg: Config, hw: Hw, keep: EventClass)
    ensures Filter(AddressMapSetup(c, cfg, hw), keep) ==
              match keep
              case MappingSteps => AddressMapSetup(c, cfg, hw)
              case Milestones => MapMilestones
              case _ => []
  {
    var maps := MapAll(MemoryMap.Regions(c, cfg, hw.ddrSize));
    AddressMapElements(c, cfg, hw);
    var t := AddressMapSetup(c, cfg, hw);
    if keep == MappingSteps {
      FilterAll(t, keep);
    } else if keep == Milestones {
      assert Filter(maps, keep) == [] by {
        assert forall e :: e in maps ==> e.MapRegion?;
        FilterNone(maps, keep);
      }
      FilterAll(MapMilestones, keep);
      FilterAppend(maps, MapMilestones, keep);
    } else {
      assert forall i :: 0 <= i < |t| ==> MappingStep(t[i]);
      FilterNone(t, keep);
    }
  }

  lemma BackupDomainFilter(hw: Hw, keep: EventClass)
    ensures Filter(BackupDomainSetup(hw), keep) ==
              match keep
              case BackupDomainSteps => BackupDomainSetup(hw)
              case BitOps => Filter(BackupDomainSetup(hw), BitOps)
              case Milestones => BackupMilestones
              case _ => []
  {
    var t := BackupDomainSetup(hw);
    if keep == BackupDomainSteps {
      FilterAll(t, keep);
    } else if keep == Milestones {
      BackupDomainMilestones(hw);
    } else if keep != BitOps {
      FilterNone(t, keep);
    }
  }

  lemma BackupDomainMilestones(hw: Hw)
    ensures Filter(BackupDomainSetup(hw), Milestones) == BackupMilestones
  {
    var pulse := if ColdBoot(hw) then VswrstPulse else [];
    assert BackupDomainSetup(hw) == BackupMilestones + pulse;
    FilterAll(BackupMilestones, Milestones);
    FilterNone(pulse, Milestones);
    FilterAppend(BackupMilestones, pulse, Milestones);
    assert BackupMilestones + [] == BackupMilestones;
  }

  lemma ClockStartFilter(keep: EventClass)
    ensures Filter(ClockStart, keep) ==
              match keep
              case Milestones => ClockStart
              case BitOps => Filter(ClockStart, BitOps)
              case _ => []
  {
    if keep == Milestones {
      FilterAll(ClockStart, keep);
    } else if keep != BitOps {
      FilterNone(ClockStart, keep);
    }
  }

  /** After the clock probe, nothing maps memory, touches a register bit or the backup domain. */
  lemma ClockSetupQuiet(c: Consts, hw: Hw, st: Bl2State, keep: EventClass)
    requires keep == BackupDomainSteps || keep == BitOps || keep == MappingSteps
    ensures Filter(ClockSetup(c, hw, st).trace, keep) == []
  {
    ClockSetupFilter(c, hw, st, keep);
    ConsoleSetupNone(c, hw, keep);
  }

  lemma LateStepsUnselected(keep: EventClass)
    requires keep != Milestones
    ensures forall e :: LateStep(e) ==> !Selects(keep, e)
  {
  }

  lemma ConsoleEventsUnselected(keep: EventClass)
    requires keep != UartAccesses && keep != ConsoleBringUp
    ensures forall e :: ConsoleEvent(e) ==> !Selects(keep, e)
  {
  }

  lemma LateSetupKinds(hw: Hw, st: Bl2State)
    ensures forall e :: e in LateSetup(hw, st) ==> LateStep(e)
  {
  }

  lemma ConsoleSetupKinds(c: Consts, hw: Hw)
    ensures forall e :: e in ConsoleSetup(c, hw).trace ==> ConsoleEvent(e)
  {
    ConsoleSteps(c, hw);
  }

  lemma LateSetupNone(hw: Hw, st: Bl2State, keep: EventClass)
    requires keep != Milestones
    ensures Filter(LateSetup(hw, st), keep) == []
  {
    LateSetupKinds(hw, st);
    LateStepsUnselected(keep);
    FilterNone(LateSetup(hw, st), keep);
  }

  lemma ConsoleSetupNone(c: Consts, hw: Hw, keep: EventClass)
    requires keep != UartAccesses && keep != ConsoleBringUp
    ensures Filter(ConsoleSetup(c, hw).trace, keep) == []
  {
    ConsoleSetupKinds(c, hw);
    ConsoleEventsUnselected(keep);
    FilterNone(ConsoleSetup(c, hw).trace, keep);
  }

  /** The clock stage's halts and its clock initialisation select nothing but milestones. */
  lemma ClockFailuresQuiet(keep: EventClass)
    requires keep != Milestones
    ensures Filter([Panic], keep) == []
    ensures Filter([ClkInit], keep) == []
    ensures Filter([ClkInit, Panic], keep) == []
  {
    FilterNone([Panic], keep);
    FilterNone([ClkInit], keep);
    FilterNone([ClkInit, Panic], keep);
  }

  /** A filter that drops both ends of `a + m + b` keeps what it keeps of `m`. */
  lemma FilterMiddle(a: seq<Event>, m: seq<Event>, b: seq<Event>, keep: EventClass)
    requires Filter(a, keep) == [] && Filter(b, keep) == []
    ensures Filter(a + m + b, keep) == Filter(m, keep)
  {
    FilterAppend(a, m, keep);
    FilterAppend(a + m, b, keep);
    assert [] + Filter(m, keep) + [] == Filter(m, keep);
  }

  /** Once the clocks are up, only the console's events can be selected outside the milestones. */
  lemma ConsoleStageFilter(c: Consts, hw: Hw, st: Bl2State, keep: EventClass)
    requires keep != Milestones
    requires hw.clkProbe >= 0 && hw.clkInit >= 0
    ensures Filter(ClockSetup(c, hw, st).trace, keep) == Filter(ConsoleSetup(c, hw).trace, keep)
  {
    var console := ConsoleSetup(c, hw);
    var late := if console.outcome.Fatal? then [] else LateSetup(hw, st);
    ClockFailuresQuiet(keep);
    if console.outcome.Continue? {
      LateSetupNone(hw, st, keep);
    }
    FilterMiddle([ClkInit], console.trace, late, keep);
  }

  /** A filter of the steps from the clock-probe verdict on, stage by stage. */
  lemma ClockSetupFilter(c: Consts, hw: Hw, st: Bl2State, keep: EventClass)
    requires keep != Milestones
    ensures Filter(ClockSetup(c, hw, st).trace, keep) ==
              if hw.clkProbe < 0 || hw.clkInit < 0 then [] else Filter(ConsoleSetup(c, hw).trace, keep)
  {
    if hw.clkProbe < 0 || hw.clkInit < 0 {
      ClockFailuresQuiet(keep);
    } else {
      ConsoleStageFilter(c, hw, st, keep);
    }
  }

  /** Saving the boot interface is a milestone; the log of its failure is not. */
  lemma SaveMilestones(save: Event, err: seq<Event>)
    requires save.SaveBootInterface?
    requires err == [] || err == [Log(Error, SaveBootInterfaceFailed)]
    ensures Filter([save] + err, Milestones) == [save]
  {
    FilterAll([save], Milestones);
    FilterNone(err, Milestones);
    FilterAppend([save], err, Milestones);
    assert [save] + [] == [save];
  }

  /** The security setup, the reset-cause report and the I/O setup are all milestones. */
  lemma TailMilestones(rstsr: ResetReason.Rstsr)
    ensures Filter([ArchSecuritySetup, ReportResetReason(rstsr), IoSetup], Milestones) ==
              [ArchSecuritySetup, ReportResetReason(rstsr), IoSetup]
  {
    FilterAll([ArchSecuritySetup, ReportResetReason(rstsr), IoSetup], Milestones);
  }

  lemma LateSetupMilestones(hw: Hw, st: Bl2State)
    ensures Filter(LateSetup(hw, st), Milestones) == LateMilestones(hw.contextAt(st.bootCtxAddr), hw.rstsr)
  {
    var ctx := hw.contextAt(st.bootCtxAddr);
    var save := SaveBootInterface(ctx.interfaceSelected, ctx.interfaceInstance);
    var err := if hw.saveBootItf != 0 then [Log(Error, SaveBootInterfaceFailed)] else [];
    var tail := [ArchSecuritySetup, ReportResetReason(hw.rstsr), IoSetup];
    SaveMilestones(save, err);
    TailMilestones(hw.rstsr);
    FilterAppend([save] + err, tail, Milestones);
  }

  lemma ClockSetupMilestones(c: Consts, hw: Hw, st: Bl2State)
    ensures Filter(ClockSetup(c, hw, st).trace, Milestones) ==
              if hw.clkProbe < 0 then []
              else if hw.clkInit < 0 || ConsoleSetup(c, hw).outcome.Fatal? then [ClkInit]
              else [ClkInit] + LateMilestones(hw.contextAt(st.bootCtxAddr), hw.rstsr)
  {
    if hw.clkProbe < 0 {
      FilterNone([Panic], Milestones);
    } else if hw.clkInit < 0 {
      assert Filter([ClkInit, Panic], Milestones) == [ClkInit] by {
        assert [ClkInit, Panic][1..] == [Panic];
        FilterNone([Panic], Milestones);
      }
    } else {
      var console := ConsoleSetup(c, hw);
      var late := if console.outcome.Fatal? then [] else LateSetup(hw, st);
      FilterAll([ClkInit], Milestones);
      ConsoleSetupNone(c, hw, Milestones);
      assert Filter([ClkInit] + console.trace, Milestones) == [ClkInit] by {
        FilterAppend([ClkInit], console.trace, Milestones);
        assert [ClkInit] + [] == [ClkInit];
      }
      if console.outcome.Continue? {
        LateSetupMilestones(hw, st);
      }
      FilterAppend([ClkInit] + console.trace, late, Milestones);
      assert [ClkInit] + [] == [ClkInit];
    }
  }

  // ---------------------------------------------------------------------------
  // The whole architecture setup
  // ---------------------------------------------------------------------------

  /** No class selects the halt. */
  lemma PanicUnselected(keep: EventClass)
    ensures Filter([Panic], keep) == []
  {
  }

  /** A filter of a trace halted by the device-tree check is the filter of the address-map phase. */
  lemma DeviceTreeHaltFilter(c: Consts, cfg: Config, hw: Hw, st: Bl2State, keep: EventClass)
    requires hw.dtOpen < 0
    ensures Filter(ArchSetup(c, cfg, hw, st).trace, keep) == Filter(AddressMapSetup(c, cfg, hw), keep)
  {
    var mapped := AddressMapSetup(c, cfg, hw);
    FilterAppend(mapped, [Panic], keep);
    PanicUnselected(keep);
    assert Filter(mapped, keep) + [] == Filter(mapped, keep);
  }

  /**
   * Past the device-tree check, a filter of the architecture-setup trace is the
   * concatenation of the filters of its stages.
   */
  lemma ArchSetupFilter(c: Consts, cfg: Config, hw: Hw, st: Bl2State, keep: EventClass)
    requires hw.dtOpen >= 0
    ensures Filter(ArchSetup(c, cfg, hw, st).trace, keep) ==
              Filter(AddressMapSetup(c, cfg, hw), keep) + Filter(BackupDomainSetup(hw), keep)
              + Filter(ClockStart, keep) + Filter(ClockSetup(c, hw, st).trace, keep)
  {
    var mapped := AddressMapSetup(c, cfg, hw);
    var bd := BackupDomainSetup(hw);
    FilterAppend(mapped, bd, keep);
    FilterAppend(mapped + bd, ClockStart, keep);
    FilterAppend(mapped + bd + ClockStart, ClockSetup(c, hw, st).trace, keep);
  }

  /** For the classes the clock stage never selects, only the first two stages contribute. */
  lemma ArchSetupQuietTail(c: Consts, cfg: Config, hw: Hw, st: Bl2State, keep: EventClass)
    requires hw.dtOpen >= 0
    requires keep == BackupDomainSteps || keep == MappingSteps
    ensures Filter(ArchSetup(c, cfg, hw, st).trace, keep) ==
              Filter(AddressMapSetup(c, cfg, hw), keep) + Filter(BackupDomainSetup(hw), keep)
  {
    var pre := Filter(AddressMapSetup(c, cfg, hw), keep) + Filter(BackupDomainSetup(hw), keep);
    ArchSetupFilter(c, cfg, hw, st, keep);
    ClockStartFilter(keep);
    ClockSetupQuiet(c, hw, st, keep);
    assert pre + [] + [] == pre;
  }

  /** The milestones before the clock initialisation. */
  const PreClockMilestones: seq<Event> := MapMilestones + BackupMilestones + ClockStart

  lemma MapMilestonesLead(ctx: BootContext, rstsr: ResetReason.Rstsr)
    ensures MapMilestones <= Phases(ctx, rstsr)
  {
    assert Phases(ctx, rstsr)[..2] == MapMilestones;
  }

  /** Whatever the clock stage's milestones, the stage's are a prefix of the phase list. */
  lemma PhasePrefix(head: seq<Event>, clock: seq<Event>, late: seq<Event>)
    requires clock == [] || clock == [ClkInit] || clock == [ClkInit] + late
    ensures head + clock <= head + [ClkInit] + late
    ensures clock == [ClkInit] + late ==> head + clock == head + [ClkInit] + late
  {
    assert (head + [ClkInit] + late)[..|head| + |clock|] == head + clock;
  }

  /** The milestones of a stage that got past the device-tree check. */
  lemma PhaseOrderPastDeviceTree(c: Consts, cfg: Config, hw: Hw, st: Bl2State)
    requires hw.dtOpen >= 0
    ensures var m := Filter(ArchSetup(c, cfg, hw, st).trace, Milestones);
            m == PreClockMilestones + Filter(ClockSetup(c, hw, st).trace, Milestones)
  {
    ArchSetupFilter(c, cfg, hw, st, Milestones);
    AddressMapFilter(c, cfg, hw, Milestones);
    BackupDomainFilter(hw, Milestones);
    ClockStartFilter(Milestones);
  }

  /**
   * The phase boundaries of the architecture setup follow the phase list: all of
   * it when the stage carries on, a prefix of it when the stage halts.
   */
  lemma PhaseOrder(c: Consts, cfg: Config, hw: Hw, st: Bl2State)
    ensures var r := ArchSetup(c, cfg, hw, st);
            Filter(r.trace, Milestones) <= Phases(hw.contextAt(st.bootCtxAddr), hw.rstsr)
    ensures var r := ArchSetup(c, cfg, hw, st);
            r.outcome == Continue ==> Filter(r.trace, Milestones) == Phases(hw.contextAt(st.bootCtxAddr), hw.rstsr)
  {
    var ctx := hw.contextAt(st.bootCtxAddr);
    if hw.dtOpen < 0 {
      DeviceTreeHaltFilter(c, cfg, hw, st, Milestones);
      AddressMapFilter(c, cfg, hw, Milestones);
      MapMilestonesLead(ctx, hw.rstsr);
    } else {
      PhaseOrderPastDeviceTree(c, cfg, hw, st);
      ClockSetupMilestones(c, hw, st);
      PhasesSplit(ctx, hw.rstsr);
      PhasePrefix(PreClockMilestones, Filter(ClockSetup(c, hw, st).trace, Milestones), LateMilestones(ctx, hw.rstsr));
    }
  }

  /**
   * Every access to RCC_BDCR follows the lifting of the backup-domain write
   * protection and the wait that observes it; a cold boot adds exactly one
   * VSWRST pulse, a warm boot never writes RCC_BDCR.
   */
  lemma BackupDomainOrder(c: Consts, cfg: Config, hw: Hw, st: Bl2State)
    ensures var t := ArchSetup(c, cfg, hw, st).trace;
            Filter(t, BackupDomainSteps) == if hw.dtOpen < 0 then [] else BackupDomainSetup(hw)
    ensures var t := ArchSetup(c, cfg, hw, st).trace;
            hw.dtOpen >= 0 ==> FollowsBackupProtocol(Filter(t, BackupDomainSteps), ColdBoot(hw))
  {
    AddressMapFilter(c, cfg, hw, BackupDomainSteps);
    if hw.dtOpen < 0 {
      DeviceTreeHaltFilter(c, cfg, hw, st, BackupDomainSteps);
    } else {
      var bd := BackupDomainSetup(hw);
      ArchSetupQuietTail(c, cfg, hw, st, BackupDomainSteps);
      BackupDomainFilter(hw, BackupDomainSteps);
      assert [] + bd == bd;
      BackupDomainSetupIsProtocol(hw);
    }
  }

  /** The backup-domain setup follows the protocol on both a cold and a warm boot. */
  lemma BackupDomainSetupIsProtocol(hw: Hw)
    ensures FollowsBackupProtocol(BackupDomainSetup(hw), ColdBoot(hw))
  {
    if ColdBoot(hw) {
      ColdBootProtocol();
      assert BackupDomainSetup(hw) == BackupMilestones + VswrstPulse;
    } else {
      WarmBootProtocol();
      assert BackupDomainSetup(hw) == BackupMilestones + [];
    }
  }

  lemma ColdBootProtocol()
    ensures FollowsBackupProtocol(BackupMilestones + VswrstPulse, true)
  {
    var f := BackupMilestones + VswrstPulse;
    assert f == [SetBit(Dbp), WaitSet(Dbp), ReadRtcSrc, SetBit(Vswrst), WaitSet(Vswrst), ClearBit(Vswrst)];
    assert forall i :: 0 <= i < |f| && f[i] == SetBit(Vswrst) ==> i == 3;
    assert forall i :: 3 <= i < |f| ==> f[..i][2] == ReadRtcSrc;
  }

  lemma WarmBootProtocol()
    ensures FollowsBackupProtocol(BackupMilestones, false)
  {
  }

  /** On a warm boot nothing writes RCC_BDCR. */
  lemma WarmBootLeavesBdcr(c: Consts, cfg: Config, hw: Hw, st: Bl2State)
    requires !ColdBoot(hw)
    ensures var t := ArchSetup(c, cfg, hw, st).trace;
            forall e :: e in t && TouchesBdcr(e) ==> e == ReadRtcSrc
  {
    var t := ArchSetup(c, cfg, hw, st).trace;
    BackupDomainOrder(c, cfg, hw, st);
    forall e | e in t && TouchesBdcr(e) ensures e == ReadRtcSrc {
      FilterKeeps(t, BackupDomainSteps, e);
    }
  }

  /** The trace opens with the address-map phase. */
  lemma AddressMapLeads(c: Consts, cfg: Config, hw: Hw, st: Bl2State)
    ensures AddressMapSetup(c, cfg, hw) <= ArchSetup(c, cfg, hw, st).trace
  {
    var mapped := AddressMapSetup(c, cfg, hw);
    if hw.dtOpen < 0 {
      PrefixAppend(mapped, [Panic]);
    } else {
      var bd := BackupDomainSetup(hw);
      var clocks := ClockSetup(c, hw, st).trace;
      AppendAssoc(mapped, bd, ClockStart);
      AppendAssoc(mapped, bd + ClockStart, clocks);
      PrefixAppend(mapped, bd + ClockStart + clocks);
    }
  }

  /** No step after the address-map phase declares a region or touches the MMU. */
  lemma MappingOnlyFirst(c: Consts, cfg: Config, hw: Hw, st: Bl2State)
    ensures Filter(ArchSetup(c, cfg, hw, st).trace, MappingSteps) == AddressMapSetup(c, cfg, hw)
  {
    var mapped := AddressMapSetup(c, cfg, hw);
    AddressMapFilter(c, cfg, hw, MappingSteps);
    if hw.dtOpen < 0 {
      DeviceTreeHaltFilter(c, cfg, hw, st, MappingSteps);
    } else {
      ArchSetupQuietTail(c, cfg, hw, st, MappingSteps);
      BackupDomainFilter(hw, MappingSteps);
      assert mapped + [] == mapped;
    }
  }

  /**
   * Address translation comes first: the trace opens with every region
   * declaration, the MMU activation and the device-tree check, and no other step
   * of the trace declares a region or touches the MMU.
   */
  lemma TranslationFirst(c: Consts, cfg: Config, hw: Hw, st: Bl2State)
    ensures var t := ArchSetup(c, cfg, hw, st).trace;
            AddressMapSetup(c, cfg, hw) <= t
    ensures var t := ArchSetup(c, cfg, hw, st).trace;
            Filter(t, MappingSteps) == AddressMapSetup(c, cfg, hw)
  {
    AddressMapLeads(c, cfg, hw, st);
    MappingOnlyFirst(c, cfg, hw, st);
  }

  /** In particular the MMU is turned on after the last region and right before the device-tree check. */
  lemma MmuBeforeDeviceTree(c: Consts, cfg: Config, hw: Hw, st: Bl2State)
    ensures var t := ArchSetup(c, cfg, hw, st).trace;
            var rs := MemoryMap.Regions(c, cfg, hw.ddrSize);
            && |t| >= |rs| + 2
            && (forall i :: 0 <= i < |rs| ==> t[i] == MapRegion(rs[i]))
            && t[|rs|] == ConfigureMmu
            && t[|rs| + 1] == DtOpenAndCheck
  {
    var t := ArchSetup(c, cfg, hw, st).trace;
    var mapped := AddressMapSetup(c, cfg, hw);
    TranslationFirst(c, cfg, hw, st);
    assert t[..|mapped|] == mapped;
    assert forall i :: 0 <= i < |mapped| ==> t[i] == mapped[i] by {
      forall i | 0 <= i < |mapped| ensures t[i] == mapped[i] {
        assert t[..|mapped|][i] == t[i];
      }
    }
  }

  // ---------------------------------------------------------------------------
  // Register replay: the busy-waits terminate and the bits end where they should
  // ---------------------------------------------------------------------------

  /** The effect of one event on the set bits, with writes taking effect at once. */
  function Apply(regs: set<Field>, e: Event): set<Field> {
    match e
    case SetBit(f) => regs + {f}
    case ClearBit(f) => regs - {f}
    case _ => regs
  }

  function Replay(regs: set<Field>, t: seq<Event>): set<Field>
    decreases |t|
  {
    if |t| == 0 then regs else Replay(Apply(regs, t[0]), t[1..])
  }

  /** Every busy-wait in `t` finds its bit already set, so it ends. */
  predicate WaitsEnd(regs: set<Field>, t: seq<Event>)
    decreases |t|
  {
    |t| == 0 || ((t[0].WaitSet? ==> t[0].field in regs) && WaitsEnd(Apply(regs, t[0]), t[1..]))
  }

  lemma {:induction false} ReplayAppend(regs: set<Field>, a: seq<Event>, b: seq<Event>)
    ensures Replay(regs, a + b) == Replay(Replay(regs, a), b)
    ensures WaitsEnd(regs, a + b) <==> WaitsEnd(regs, a) && WaitsEnd(Replay(regs, a), b)
    decreases |a|
  {
    if |a| == 0 {
      assert a + b == b;
    } else {
      assert (a + b)[0] == a[0];
      assert (a + b)[1..] == a[1..] + b;
      ReplayAppend(Apply(regs, a[0]), a[1..], b);
    }
  }

  /** A trace without register accesses changes no bit and waits on nothing. */
  lemma {:induction false} ReplayQuiet(regs: set<Field>, t: seq<Event>)
    requires Filter(t, BitOps) == []
    ensures Replay(regs, t) == regs
    ensures WaitsEnd(regs, t)
    decreases |t|
  {
    if |t| > 0 {
      assert !BitOp(t[0]);
      ReplayQuiet(regs, t[1..]);
    }
  }

  lemma {:induction false} ReplayStep(regs: set<Field>, e: Event, t: seq<Event>)
    ensures Replay(regs, [e] + t) == Replay(Apply(regs, e), t)
    ensures WaitsEnd(regs, [e] + t) <==> (e.WaitSet? ==> e.field in regs) && WaitsEnd(Apply(regs, e), t)
  {
    assert ([e] + t)[0] == e;
    assert ([e] + t)[1..] == t;
  }

  lemma VswrstPulseReplay(regs: set<Field>)
    ensures WaitsEnd(regs, VswrstPulse)
    ensures Replay(regs, VswrstPulse) == regs - {Vswrst}
  {
    var on := regs + {Vswrst};
    assert VswrstPulse == [SetBit(Vswrst)] + ([WaitSet(Vswrst)] + ([ClearBit(Vswrst)] + []));
    ReplayStep(regs, SetBit(Vswrst), [WaitSet(Vswrst)] + ([ClearBit(Vswrst)] + []));
    ReplayStep(on, WaitSet(Vswrst), [ClearBit(Vswrst)] + []);
    ReplayStep(on, ClearBit(Vswrst), []);
  }

  lemma BackupDomainReplay(regs: set<Field>, hw: Hw)
    ensures WaitsEnd(regs, BackupDomainSetup(hw))
    ensures Replay(regs, BackupDomainSetup(hw)) ==
              if ColdBoot(hw) then regs + {Dbp} - {Vswrst} else regs + {Dbp}
  {
    var dbp := regs + {Dbp};
    var pulse := if ColdBoot(hw) then VswrstPulse else [];
    assert BackupDomainSetup(hw) == [SetBit(Dbp)] + ([WaitSet(Dbp)] + ([ReadRtcSrc] + pulse));
    ReplayStep(regs, SetBit(Dbp), [WaitSet(Dbp)] + ([ReadRtcSrc] + pulse));
    ReplayStep(dbp, WaitSet(Dbp), [ReadRtcSrc] + pulse);
    ReplayStep(dbp, ReadRtcSrc, pulse);
    if ColdBoot(hw) {
      VswrstPulseReplay(dbp);
    }
  }

  lemma ClockStartReplay(regs: set<Field>)
    ensures WaitsEnd(regs, ClockStart)
    ensures Replay(regs, ClockStart) == regs - {Mckprot}
  {
    var off := regs - {Mckprot};
    assert ClockStart == [ClearBit(Mckprot)] + [DelayTimerInit, ClkProbe];
    ReplayStep(regs, ClearBit(Mckprot), [DelayTimerInit, ClkProbe]);
    assert Filter([DelayTimerInit, ClkProbe], BitOps) == [] by {
      FilterNone([DelayTimerInit, ClkProbe], BitOps);
    }
    ReplayQuiet(off, [DelayTimerInit, ClkProbe]);
  }

  lemma ClockSetupReplay(c: Consts, hw: Hw, st: Bl2State, regs: set<Field>)
    ensures WaitsEnd(regs, ClockSetup(c, hw, st).trace)
    ensures Replay(regs, ClockSetup(c, hw, st).trace) == regs
  {
    ClockSetupQuiet(c, hw, st, BitOps);
    ReplayQuiet(regs, ClockSetup(c, hw, st).trace);
  }

  /**
   * Replaying the architecture setup from any initial register state, every
   * busy-wait ends; once the device tree is valid, DBP ends set, MCKPROT ends
   * clear, and VSWRST ends clear on a cold boot and untouched on a warm one.
   */
  lemma RegistersAfterArchSetup(c: Consts, cfg: Config, hw: Hw, st: Bl2State, regs: set<Field>)
    ensures var t := ArchSetup(c, cfg, hw, st).trace;
            WaitsEnd(regs, t)
    ensures var t := ArchSetup(c, cfg, hw, st).trace;
            hw.dtOpen < 0 ==> Replay(regs, t) == regs
    ensures var t := ArchSetup(c, cfg, hw, st).trace;
            hw.dtOpen >= 0 ==>
              && Dbp in Replay(regs, t)
              && Mckprot !in Replay(regs, t)
              && (Vswrst in Replay(regs, t) <==> Vswrst in regs && !ColdBoot(hw))
  {
    var mapped := AddressMapSetup(c, cfg, hw);
    AddressMapFilter(c, cfg, hw, BitOps);
    ReplayQuiet(regs, mapped);
    if hw.dtOpen < 0 {
      assert Filter([Panic], BitOps) == [] by { FilterNone([Panic], BitOps); }
      ReplayQuiet(regs, [Panic]);
      ReplayAppend(regs, mapped, [Panic]);
    } else {
      var bd := BackupDomainSetup(hw);
      var clocks := ClockSetup(c, hw, st).trace;
      BackupDomainReplay(regs, hw);
      var afterBd := Replay(regs, bd);
      ClockStartReplay(afterBd);
      ClockSetupReplay(c, hw, st, afterBd - {Mckprot});
      ReplayAppend(regs, mapped, bd);
      ReplayAppend(regs, mapped + bd, ClockStart);
      ReplayAppend(regs, mapped + bd + ClockStart, clocks);
    }
  }

  // ---------------------------------------------------------------------------
  // Fatal and non-fatal outcomes
  // ---------------------------------------------------------------------------

  /** The trace ends in the halt and the halt occurs nowhere before. */
  predicate HaltsAtEnd(t: seq<Event>) {
    |t| > 0 && t[|t| - 1] == Panic && Panic !in t[..|t| - 1]
  }

  lemma HaltsAfter(pre: seq<Event>, t: seq<Event>)
    requires Panic !in pre && HaltsAtEnd(t)
    ensures HaltsAtEnd(pre + t)
  {
    assert (pre + t)[..|pre + t| - 1] == pre + t[..|t| - 1];
  }

  /** A trace whose last step is not the halt, and which has no halt before it, has none. */
  lemma NoHaltAnywhere(t: seq<Event>)
    requires |t| > 0 ==> t[|t| - 1] != Panic && Panic !in t[..|t| - 1]
    ensures Panic !in t
  {
    if |t| > 0 {
      assert t == t[..|t| - 1] + [t[|t| - 1]];
    }
  }

  /** The console halts only at its end, and never reaches the security, reset-report or I/O steps. */
  lemma ConsoleHalts(c: Consts, hw: Hw)
    ensures var r := ConsoleSetup(c, hw);
            && (r.outcome.Fatal? ==> HaltsAtEnd(r.trace))
            && (r.outcome.Continue? ==> Panic !in r.trace)
            && ArchSecuritySetup !in r.trace && IoSetup !in r.trace && ReportResetReason(hw.rstsr) !in r.trace
  {
    var r := ConsoleSetup(c, hw);
    ConsoleSteps(c, hw);
    if r.outcome.Continue? {
      NoHaltAnywhere(r.trace);
    }
  }

  lemma ConsoleStageHalts(c: Consts, hw: Hw, st: Bl2State)
    requires hw.clkProbe >= 0 && hw.clkInit >= 0
    ensures var r := ClockSetup(c, hw, st);
            && (r.outcome.Fatal? ==> HaltsAtEnd(r.trace))
            && (r.outcome.Continue? ==> Panic !in r.trace)
            && (r.outcome.Fatal? ==> ArchSecuritySetup !in r.trace && IoSetup !in r.trace)
            && (r.outcome.Fatal? ==> ReportResetReason(hw.rstsr) !in r.trace)
  {
    var console := ConsoleSetup(c, hw);
    var r := ClockSetup(c, hw, st);
    ConsoleHalts(c, hw);
    if console.outcome.Fatal? {
      assert r.trace == [ClkInit] + console.trace + [];
      HaltsAfter([ClkInit], console.trace);
    } else {
      LateSetupKinds(hw, st);
    }
  }

  lemma ClockSetupHalts(c: Consts, hw: Hw, st: Bl2State)
    ensures var r := ClockSetup(c, hw, st);
            && (r.outcome.Fatal? ==> HaltsAtEnd(r.trace))
            && (r.outcome.Continue? ==> Panic !in r.trace)
            && (r.outcome.Fatal? ==> ArchSecuritySetup !in r.trace && IoSetup !in r.trace)
            && (r.outcome.Fatal? ==> ReportResetReason(hw.rstsr) !in r.trace)
  {
    if hw.clkProbe >= 0 && hw.clkInit < 0 {
      assert [ClkInit, Panic][..1] == [ClkInit];
    } else if hw.clkProbe >= 0 {
      ConsoleStageHalts(c, hw, st);
    }
  }

  lemma ProbingQuiet(c: Consts, cfg: Config, hw: Hw)
    ensures var pre := AddressMapSetup(c, cfg, hw) + BackupDomainSetup(hw) + ClockStart;
            Panic !in pre && ArchSecuritySetup !in pre && IoSetup !in pre && ReportResetReason(hw.rstsr) !in pre
  {
    AddressMapElements(c, cfg, hw);
  }

  /**
   * A fatal outcome is exactly a trace ending in the halt, the halt occurs nowhere
   * else, and a halted stage never reaches the security, reset-report or I/O steps.
   */
  lemma FatalHalts(c: Consts, cfg: Config, hw: Hw, st: Bl2State)
    ensures var r := ArchSetup(c, cfg, hw, st);
            r.outcome.Fatal? <==> HaltsAtEnd(r.trace)
    ensures var r := ArchSetup(c, cfg, hw, st);
            r.outcome.Continue? ==> Panic !in r.trace
    ensures var r := ArchSetup(c, cfg, hw, st);
            r.outcome.Fatal? ==> ArchSecuritySetup !in r.trace && IoSetup !in r.trace
    ensures var r := ArchSetup(c, cfg, hw, st);
            r.outcome.Fatal? ==> ReportResetReason(hw.rstsr) !in r.trace
  {
    var mapped := AddressMapSetup(c, cfg, hw);
    var r := ArchSetup(c, cfg, hw, st);
    ProbingQuiet(c, cfg, hw);
    if hw.dtOpen < 0 {
      AddressMapElements(c, cfg, hw);
      HaltsAfter(mapped, [Panic]);
    } else {
      var pre := mapped + BackupDomainSetup(hw) + ClockStart;
      ClockSetupHalts(c, hw, st);
      if r.outcome.Fatal? {
        HaltsAfter(pre, ClockSetup(c, hw, st).trace);
      } else if |r.trace| > 0 {
        assert r.trace[|r.trace| - 1] in r.trace;
      }
    }
  }

  /** A suffix of `b` is a suffix of `a + b`. */
  lemma SuffixOf(a: seq<Event>, b: seq<Event>, s: seq<Event>)
    requires |b| >= |s| && b[|b| - |s|..] == s
    ensures |a + b| >= |s| && (a + b)[|a + b| - |s|..] == s
  {
    SuffixAppend(a, b, |s|);
  }

  lemma LateSetupEnds(hw: Hw, st: Bl2State)
    ensures var late := LateSetup(hw, st);
            |late| >= 3 && late[|late| - 3..] == [ArchSecuritySetup, ReportResetReason(hw.rstsr), IoSetup]
  {
    var ctx := hw.contextAt(st.bootCtxAddr);
    var saved := [SaveBootInterface(ctx.interfaceSelected, ctx.interfaceInstance)]
                 + (if hw.saveBootItf != 0 then [Log(Error, SaveBootInterfaceFailed)] else []);
    SuffixOf(saved, [ArchSecuritySetup, ReportResetReason(hw.rstsr), IoSetup],
             [ArchSecuritySetup, ReportResetReason(hw.rstsr), IoSetup]);
  }

  lemma ClockSetupEnds(c: Consts, hw: Hw, st: Bl2State)
    requires ClockSetup(c, hw, st).outcome == Continue
    ensures var t := ClockSetup(c, hw, st).trace;
            |t| >= 3 && t[|t| - 3..] == [ArchSecuritySetup, ReportResetReason(hw.rstsr), IoSetup]
  {
    LateSetupEnds(hw, st);
    SuffixOf([ClkInit] + ConsoleSetup(c, hw).trace, LateSetup(hw, st),
             [ArchSecuritySetup, ReportResetReason(hw.rstsr), IoSetup]);
  }

  /**
   * When the stage carries on, it always ends with the security setup, the
   * reset-cause report and the I/O setup, whatever happened to the console or to
   * saving the boot interface.
   */
  lemma ContinueEndsWithLateSteps(c: Consts, cfg: Config, hw: Hw, st: Bl2State)
    ensures var t := ArchSetup(c, cfg, hw, st).trace;
            ArchSetup(c, cfg, hw, st).outcome == Continue ==>
              |t| >= 3 && t[|t| - 3..] == [ArchSecuritySetup, ReportResetReason(hw.rstsr), IoSetup]
  {
    if ArchSetup(c, cfg, hw, st).outcome == Continue {
      ClockSetupEnds(c, hw, st);
      SuffixOf(AddressMapSetup(c, cfg, hw) + BackupDomainSetup(hw) + ClockStart, ClockSetup(c, hw, st).trace,
               [ArchSecuritySetup, ReportResetReason(hw.rstsr), IoSetup]);
    }
  }

  lemma SkippedConsoleQuiet(c: Consts, hw: Hw, st: Bl2State)
    requires !ConsoleConfigured(hw)
    ensures Filter(ClockSetup(c, hw, st).trace, UartAccesses) == []
  {
    ClockSetupFilter(c, hw, st, UartAccesses);
    FilterNone(ConsoleSetup(c, hw).trace, UartAccesses);
  }

  /** Without a configured console, nothing touches the UART clock, its reset line or its driver. */
  lemma NoUartAccessWithoutConsole(c: Consts, cfg: Config, hw: Hw, st: Bl2State)
    requires !ConsoleConfigured(hw)
    ensures Filter(ArchSetup(c, cfg, hw, st).trace, UartAccesses) == []
  {
    AddressMapFilter(c, cfg, hw, UartAccesses);
    if hw.dtOpen < 0 {
      DeviceTreeHaltFilter(c, cfg, hw, st, UartAccesses);
    } else {
      ArchSetupFilter(c, cfg, hw, st, UartAccesses);
      BackupDomainFilter(hw, UartAccesses);
      ClockStartFilter(UartAccesses);
      SkippedConsoleQuiet(c, hw, st);
    }
  }

  /** A skipped console is not an error: the stage carries on to the I/O setup and nothing touches the UART. */
  lemma ConsoleSkipIsBenign(c: Consts, cfg: Config, hw: Hw, st: Bl2State)
    requires !ConsoleConfigured(hw)
    requires hw.dtOpen >= 0 && hw.clkProbe >= 0 && hw.clkInit >= 0
    ensures var r := ArchSetup(c, cfg, hw, st);
            && r.outcome == Continue
            && Filter(r.trace, UartAccesses) == []
            && IoSetup in r.trace
  {
    var t := ArchSetup(c, cfg, hw, st).trace;
    NoUartAccessWithoutConsole(c, cfg, hw, st);
    ContinueEndsWithLateSteps(c, cfg, hw, st);
    assert t[|t| - 3..][2] == t[|t| - 1];
  }

  /**
   * In a trace made of a part with no console step that ends with the delay timer,
   * the clock probe and the clock initialisation, then a part that saves no boot
   * interface, then a part with no console step, every console step comes after
   * the delay timer and the clock initialisation and before any save.
   */
  lemma {:induction false} ConsoleWindow(pre: seq<Event>, mid: seq<Event>, post: seq<Event>)
    requires |pre| >= 3 && pre[|pre| - 3..] == [DelayTimerInit, ClkProbe, ClkInit]
    requires forall e :: e in pre ==> !ConsoleStep(e) && !e.SaveBootInterface?
    requires forall e :: e in mid ==> !e.SaveBootInterface?
    requires forall e :: e in post ==> !ConsoleStep(e)
    ensures var t := pre + mid + post;
            forall i :: 0 <= i < |t| && ConsoleStep(t[i]) ==> DelayTimerInit in t[..i] && ClkInit in t[..i]
    ensures var t := pre + mid + post;
            forall i, j :: 0 <= i < |t| && 0 <= j < |t| && ConsoleStep(t[i]) && t[j].SaveBootInterface? ==> i < j
  {
    var t := pre + mid + post;
    assert pre[|pre| - 1] == ClkInit && pre[|pre| - 3] == DelayTimerInit by {
      assert pre[|pre| - 3..][2] == pre[|pre| - 1];
      assert pre[|pre| - 3..][0] == pre[|pre| - 3];
    }
    forall i | 0 <= i < |t| && ConsoleStep(t[i])
      ensures |pre| <= i < |pre| + |mid|
      ensures DelayTimerInit in t[..i] && ClkInit in t[..i]
    {
      assert t[..i][|pre| - 1] == ClkInit;
      assert t[..i][|pre| - 3] == DelayTimerInit;
    }
  }

  /** Up to the clock probe, nothing is a console step or saves the boot interface. */
  lemma PreClockStepsQuiet(c: Consts, cfg: Config, hw: Hw)
    ensures forall e :: e in AddressMapSetup(c, cfg, hw) + BackupDomainSetup(hw) + ClockStart ==>
              !ConsoleStep(e) && !e.SaveBootInterface?
  {
    AddressMapElements(c, cfg, hw);
  }

  lemma LateSetupNotConsole(hw: Hw, st: Bl2State)
    ensures forall e :: e in LateSetup(hw, st) ==> !ConsoleStep(e)
  {
  }

  /** A stage halted before the clock initialisation succeeded brings up no console. */
  lemma NoConsoleBeforeClocks(c: Consts, cfg: Config, hw: Hw, st: Bl2State)
    requires hw.dtOpen < 0 || hw.clkProbe < 0 || hw.clkInit < 0
    ensures var t := ArchSetup(c, cfg, hw, st).trace;
            forall e :: e in t ==> !ConsoleStep(e) && !e.SaveBootInterface?
  {
    PreClockStepsQuiet(c, cfg, hw);
    var head := AddressMapSetup(c, cfg, hw) + BackupDomainSetup(hw) + ClockStart;
    if hw.dtOpen >= 0 {
      assert ArchSetup(c, cfg, hw, st).trace == head + ClockSetup(c, hw, st).trace;
    }
  }

  /** Past the clock initialisation, the console steps sit between it and the late steps. */
  lemma ConsoleAfterClocksRunning(c: Consts, cfg: Config, hw: Hw, st: Bl2State)
    requires hw.dtOpen >= 0 && hw.clkProbe >= 0 && hw.clkInit >= 0
    ensures var t := ArchSetup(c, cfg, hw, st).trace;
            forall i :: 0 <= i < |t| && ConsoleStep(t[i]) ==> DelayTimerInit in t[..i] && ClkInit in t[..i]
    ensures var t := ArchSetup(c, cfg, hw, st).trace;
            forall i, j :: 0 <= i < |t| && 0 <= j < |t| && ConsoleStep(t[i]) && t[j].SaveBootInterface? ==> i < j
  {
    var console := ConsoleSetup(c, hw);
    var late := if console.outcome.Fatal? then [] else LateSetup(hw, st);
    var head := AddressMapSetup(c, cfg, hw) + BackupDomainSetup(hw);
    var pre := head + ClockStart + [ClkInit];
    assert ArchSetup(c, cfg, hw, st).trace == pre + console.trace + late;
    PreClockStepsQuiet(c, cfg, hw);
    ConsoleSetupKinds(c, hw);
    LateSetupNotConsole(hw, st);
    assert pre[|pre| - 3..] == [DelayTimerInit, ClkProbe, ClkInit];
    ConsoleWindow(pre, console.trace, late);
  }

  /**
   * The console is brought up between the clocks and the late steps: every step of
   * it (and so every `udelay` and `mdelay`) comes after the delay timer and the
   * clock initialisation, and before the boot interface is saved.
   */
  lemma ConsoleAfterClocks(c: Consts, cfg: Config, hw: Hw, st: Bl2State)
    ensures var t := ArchSetup(c, cfg, hw, st).trace;
            forall i :: 0 <= i < |t| && ConsoleStep(t[i]) ==> DelayTimerInit in t[..i] && ClkInit in t[..i]
    ensures var t := ArchSetup(c, cfg, hw, st).trace;
            forall i, j :: 0 <= i < |t| && 0 <= j < |t| && ConsoleStep(t[i]) && t[j].SaveBootInterface? ==> i < j
  {
    var t := ArchSetup(c, cfg, hw, st).trace;
    if hw.dtOpen < 0 || hw.clkProbe < 0 || hw.clkInit < 0 {
      NoConsoleBeforeClocks(c, cfg, hw, st);
      assert forall i :: 0 <= i < |t| ==> t[i] in t;
    } else {
      ConsoleAfterClocksRunning(c, cfg, hw, st);
    }
  }

  /** Of console events that halt only at the end, the console steps are all but that halt. */
  lemma {:induction false} StepsButHalt(t: seq<Event>, fatal: bool)
    requires forall e :: e in t ==> ConsoleEvent(e)
    requires fatal ==> HaltsAtEnd(t)
    requires !fatal ==> Panic !in t
    ensures Filter(t, ConsoleBringUp) == if fatal then t[..|t| - 1] else t
  {
    if fatal {
      var body := t[..|t| - 1];
      assert t == body + [Panic];
      assert forall i :: 0 <= i < |body| ==> body[i] in t[..|t| - 1];
      FilterAll(body, ConsoleBringUp);
      FilterNone([Panic], ConsoleBringUp);
      FilterAppend(body, [Panic], ConsoleBringUp);
      assert body + [] == body;
    } else {
      assert forall i :: 0 <= i < |t| ==> t[i] in t;
      FilterAll(t, ConsoleBringUp);
    }
  }

  /** The console stage's own steps are all of its trace but the halt that may end it. */
  lemma ConsoleSetupSteps(c: Consts, hw: Hw)
    ensures var r := ConsoleSetup(c, hw);
            Filter(r.trace, ConsoleBringUp) == if r.outcome.Fatal? then r.trace[..|r.trace| - 1] else r.trace
  {
    var r := ConsoleSetup(c, hw);
    ConsoleSetupKinds(c, hw);
    ConsoleHalts(c, hw);
    StepsButHalt(r.trace, r.outcome.Fatal?);
  }

  /** Once the clocks are up, the trace's console steps are those of the console stage. */
  lemma ConsoleStageInTrace(c: Consts, cfg: Config, hw: Hw, st: Bl2State)
    requires hw.dtOpen >= 0 && hw.clkProbe >= 0 && hw.clkInit >= 0
    ensures Filter(ArchSetup(c, cfg, hw, st).trace, ConsoleBringUp) == Filter(ConsoleSetup(c, hw).trace, ConsoleBringUp)
  {
    ArchSetupFilter(c, cfg, hw, st, ConsoleBringUp);
    AddressMapFilter(c, cfg, hw, ConsoleBringUp);
    BackupDomainFilter(hw, ConsoleBringUp);
    ClockStartFilter(ConsoleBringUp);
    ConsoleStageFilter(c, hw, st, ConsoleBringUp);
  }

  /** A stage halted before its clocks are up has no console step. */
  lemma NoConsoleStepsBeforeClocks(c: Consts, cfg: Config, hw: Hw, st: Bl2State)
    requires hw.dtOpen < 0 || hw.clkProbe < 0 || hw.clkInit < 0
    ensures Filter(ArchSetup(c, cfg, hw, st).trace, ConsoleBringUp) == []
  {
    AddressMapFilter(c, cfg, hw, ConsoleBringUp);
    if hw.dtOpen < 0 {
      DeviceTreeHaltFilter(c, cfg, hw, st, ConsoleBringUp);
    } else {
      ArchSetupFilter(c, cfg, hw, st, ConsoleBringUp);
      BackupDomainFilter(hw, ConsoleBringUp);
      ClockStartFilter(ConsoleBringUp);
      ClockSetupFilter(c, hw, st, ConsoleBringUp);
    }
  }

  /**
   * The console is brought up exactly when the device tree and the clocks are:
   * the trace's console steps are then the console stage's whole trace but its
   * final halt, and otherwise there are none.
   */
  lemma ConsoleBroughtUp(c: Consts, cfg: Config, hw: Hw, st: Bl2State)
    ensures var t := ArchSetup(c, cfg, hw, st).trace;
            var r := ConsoleSetup(c, hw);
            hw.dtOpen >= 0 && hw.clkProbe >= 0 && hw.clkInit >= 0 ==>
              Filter(t, ConsoleBringUp) == if r.outcome.Fatal? then r.trace[..|r.trace| - 1] else r.trace
    ensures var t := ArchSetup(c, cfg, hw, st).trace;
            hw.dtOpen < 0 || hw.clkProbe < 0 || hw.clkInit < 0 ==> Filter(t, ConsoleBringUp) == []
  {
    if hw.dtOpen >= 0 && hw.clkProbe >= 0 && hw.clkInit >= 0 {
      ConsoleStageInTrace(c, cfg, hw, st);
      ConsoleSetupSteps(c, hw);
    } else {
      NoConsoleStepsBeforeClocks(c, cfg, hw, st);
    }
  }

  /** Failing to save the boot interface is logged and changes nothing else about the outcome. */
  lemma SaveFailureIsLogged(c: Consts, cfg: Config, hw: Hw, st: Bl2State, v: int)
    ensures ArchSetup(c, cfg, hw.(saveBootItf := v), st).outcome == ArchSetup(c, cfg, hw, st).outcome
    ensures var r := ArchSetup(c, cfg, hw, st);
            r.outcome == Continue ==> (Log(Error, SaveBootInterfaceFailed) in r.trace <==> hw.saveBootItf != 0)
  {
    var r := ArchSetup(c, cfg, hw, st);
    if r.outcome == Continue {
      var console := ConsoleSetup(c, hw);
      var pre := AddressMapSetup(c, cfg, hw) + BackupDomainSetup(hw) + ClockStart;
      assert r.trace == pre + ([ClkInit] + console.trace + LateSetup(hw, st));
      assert Log(Error, SaveBootInterfaceFailed) !in pre by {
        AddressMapElements(c, cfg, hw);
      }
      assert Log(Error, SaveBootInterfaceFailed) !in console.trace by {
        ConsoleSteps(c, hw);
      }
    }
  }

  /**
   * The boot interface the stage saves is the one recorded in the boot context whose
   * address the early setup received.
   */
  lemma BootInterfaceFromHandOff(arg0: nat, arg1: nat, arg2: nat, arg3: nat,
                                 c: Consts, cfg: Config, hw: Hw)
    ensures var st := EarlyPlatformSetup(arg0, arg1, arg2, arg3).0;
            var r := ArchSetup(c, cfg, hw, st);
            r.outcome == Continue ==>
              SaveBootInterface(hw.contextAt(arg0).interfaceSelected,
                                hw.contextAt(arg0).interfaceInstance) in r.trace
  {
    var st := EarlyPlatformSetup(arg0, arg1, arg2, arg3).0;
    var r := ArchSetup(c, cfg, hw, st);
    if r.outcome == Continue {
      PhaseOrder(c, cfg, hw, st);
      var e := Phases(hw.contextAt(arg0), hw.rstsr)[9];
      assert e in Filter(r.trace, Milestones);
      FilterSubset(r.trace, Milestones, e);
    }
  }
}

=== FILE: common.dfy ===
/** Definitions shared by every part of the STM32MP1 BL2 platform model. */
module Common {

  /** 2^32: the STM32MP1 BL2 runs in AArch32, so `uintptr_t` and `uint32_t` are 32 bits wide. */
  const WORD: int := 0x1_0000_0000

  /** Unsigned 32-bit wrap-around, as C performs it on `uintptr_t` arithmetic. */
  function U32(x: int): (r: nat)
    ensures r < WORD
    ensures 0 <= x < WORD ==> r == x
    ensures -WORD <= x < 0 ==> r == x + WORD
  {
    x % WORD
  }

  datatype Option<T> = None | Some(value: T)

  /** The log severities the boot stage uses; a fatal halt is not a log level but an outcome. */
  datatype Level = Warn | Info | Notice | Error

  /**
   * Platform constants. They come from platform headers that are not part of this
   * model, so they stay symbolic: every property below holds for any choice of them
   * unless a lemma says otherwise.
   */
  datatype Consts = Consts(
    codeBase: nat,      // BL_CODE_BASE
    codeEnd: nat,       // BL_CODE_END
    bl32Base: nat,      // BL32_BASE
    bl32Limit: nat,     // BL32_LIMIT
    dtbBase: nat,       // DTB_BASE
    dtbLimit: nat,      // DTB_LIMIT
    ddrBase: nat,       // STM32MP_DDR_BASE
    ddrMaxSize: nat,    // STM32MP_DDR_MAX_SIZE
    ddrSSize: nat,      // STM32MP_DDR_S_SIZE
    ddrShmemSize: nat,  // STM32MP_DDR_SHMEM_SIZE
    opteeBase: nat,     // STM32MP_OPTEE_BASE
    opteeSize: nat,     // STM32MP_OPTEE_SIZE
    uartBaudrate: nat   // STM32MP_UART_BAUDRATE
  )

  /** Build-time configuration: whether the image is built with AARCH32_SP_OPTEE. */
  datatype Config = Config(optee: bool)
}

=== FILE: memory_map.dfy ===
/**
 * The address map BL2 declares before it turns on address translation, and the
 * secure DDR carve-out at the top of DRAM that both the map and the OP-TEE
 * post-load fix-up use.
 */
module MemoryMap {
  import opened Common

  datatype MemKind = Code | Memory
  datatype Access = ReadOnly | ReadWrite
  datatype Security = Secure | NonSecure

  /** Translation attributes; `Code` is read-only and executable (MT_CODE). */
  datatype Attr = Attr(kind: MemKind, access: Access, security: Security)

  /** One `mmap_add_region(pa, va, size, attr)` call. */
  datatype Region = Region(pa: nat, va: nat, size: nat, attr: Attr)

  const CodeSecure := Attr(Code, ReadOnly, Secure)          // MT_CODE | MT_SECURE
  const MemSecureRw := Attr(Memory, ReadWrite, Secure)      // MT_MEMORY | MT_RW | MT_SECURE
  const MemSecureRo := Attr(Memory, ReadOnly, Secure)       // MT_MEMORY | MT_RO | MT_SECURE
  const MemNonSecureRw := Attr(Memory, ReadWrite, NonSecure) // MT_MEMORY | MT_RW | MT_NS

  /** Every region of this boot stage maps a physical range onto the same virtual range. */
  function Flat(base: nat, size: nat, attr: Attr): Region {
    Region(base, base, size, attr)
  }

  /**
   * Base of the secure DDR carve-out: DDR base + DRAM size - secure size -
   * shared-memory size, computed in 32-bit unsigned arithmetic.
   */
  function SecureDdrBase(c: Consts, ddrSize: nat): (r: nat)
    ensures r < WORD
    // with a DRAM large enough for both reserved areas, the carve-out sits just below
    // the shared memory at the top of DRAM, as long as its base fits in 32 bits (which
    // includes a DRAM ending exactly at 2^32 when the reserved areas are not empty)
    ensures c.ddrSSize + c.ddrShmemSize <= ddrSize && c.ddrBase + ddrSize - c.ddrSSize - c.ddrShmemSize < WORD ==>
              c.ddrBase <= r && r + c.ddrSSize + c.ddrShmemSize == c.ddrBase + ddrSize
  {
    U32(c.ddrBase + ddrSize - c.ddrSSize - c.ddrShmemSize)
  }

  /** The code of this boot stage. */
  function CodeRegion(c: Consts): Region {
    Flat(c.codeBase, U32(c.codeEnd - c.codeBase), CodeSecure)
  }

  /** The secure DDR carve-out OP-TEE's paged part will occupy, kept writable for the fix-up. */
  function SecureDdrRegion(c: Consts, ddrSize: nat): Region {
    Flat(SecureDdrBase(c, ddrSize), c.ddrSSize, MemSecureRw)
  }

  /** The OP-TEE pager area. */
  function OpteeRegion(c: Consts): Region {
    Flat(c.opteeBase, c.opteeSize, MemSecureRw)
  }

  /** A preloaded BL32, mapped read-only so that this stage cannot corrupt it. */
  function Bl32Region(c: Consts): Region {
    Flat(c.bl32Base, U32(c.bl32Limit - c.bl32Base), MemSecureRo)
  }

  /** Non-secure DDR, for loading BL33 and restoring the DDR training area. */
  function NonSecureDdrRegion(c: Consts): Region {
    Flat(c.ddrBase, c.ddrMaxSize, MemNonSecureRw)
  }

  /** The preloaded device tree, mapped read-only so that this stage cannot corrupt it. */
  function DtbRegion(c: Consts): Region {
    Flat(c.dtbBase, U32(c.dtbLimit - c.dtbBase), MemSecureRo)
  }

  /** The regions declared, in declaration order, for the given build. */
  function Regions(c: Consts, cfg: Config, ddrSize: nat): seq<Region> {
    if cfg.optee then
      [CodeRegion(c), SecureDdrRegion(c, ddrSize), OpteeRegion(c), NonSecureDdrRegion(c), DtbRegion(c)]
    else
      [CodeRegion(c), Bl32Region(c), NonSecureDdrRegion(c), DtbRegion(c)]
  }

  /** The security layout of the declared map. */
  lemma RegionsLayout(c: Consts, cfg: Config, ddrSize: nat)
    ensures var rs := Regions(c, cfg, ddrSize);
      && |rs| == (if cfg.optee then 5 else 4)
      // every region is flat-mapped
      && (forall i :: 0 <= i < |rs| ==> rs[i].pa == rs[i].va)
      // the code comes first and is the only executable region
      && rs[0] == CodeRegion(c)
      && (forall i :: 0 < i < |rs| ==> rs[i].attr.kind == Memory)
      // the device tree comes last, secure and read-only
      && rs[|rs| - 1] == DtbRegion(c)
      // the DDR handed to the next stage is declared, and is the only non-secure region
      && NonSecureDdrRegion(c) in rs
      && (forall i :: 0 <= i < |rs| ==> (rs[i].attr.security == NonSecure <==> rs[i] == NonSecureDdrRegion(c)))
      // without OP-TEE nothing secure is writable and the preloaded BL32 is protected
      && (!cfg.optee ==> forall i :: 0 <= i < |rs| && rs[i].attr.security == Secure ==> rs[i].attr.access == ReadOnly)
      && (!cfg.optee ==> Bl32Region(c) in rs)
      // with OP-TEE, exactly the carve-out and the pager area are secure and writable,
      // and the device tree is the only secure read-only data
      && (cfg.optee ==> forall i :: 0 <= i < |rs| ==>
            (rs[i].attr == MemSecureRw <==> rs[i] == SecureDdrRegion(c, ddrSize) || rs[i] == OpteeRegion(c)))
      && (cfg.optee ==> SecureDdrRegion(c, ddrSize) in rs && OpteeRegion(c) in rs)
      && (cfg.optee ==> forall i :: 0 <= i < |rs| && rs[i].attr == MemSecureRo ==> rs[i] == DtbRegion(c))
  {
  }

  /** `inner` lies entirely within `outer`. */
  predicate Within(inner: Region, outer: Region) {
    outer.pa <= inner.pa && inner.pa + inner.size <= outer.pa + outer.size
  }

  /**
   * The non-secure DDR mapping spans the secure carve-out whenever DRAM holds both
   * reserved areas, is no larger than its maximum size and the carve-out base fits
   * in 32 bits: the map does not keep the two apart.
   */
  lemma NonSecureDdrSpansCarveOut(c: Consts, ddrSize: nat)
    requires c.ddrSSize + c.ddrShmemSize <= ddrSize <= c.ddrMaxSize
    requires c.ddrBase + ddrSize - c.ddrSSize - c.ddrShmemSize < WORD
    ensures Within(SecureDdrRegion(c, ddrSize), NonSecureDdrRegion(c))
  {
  }

  /** A DRAM filling the 32-bit space up to 2^32 still gets its carve-out right below the shared memory. */
  lemma FullWindowCarveOut(c: Consts, ddrSize: nat)
    requires 0 < c.ddrSSize + c.ddrShmemSize <= ddrSize
    requires c.ddrBase + ddrSize == WORD
    ensures SecureDdrBase(c, ddrSize) == WORD - c.ddrSSize - c.ddrShmemSize
  {
  }

  /** A DRAM smaller than both reserved areas puts the carve-out below DDR_BASE. */
  lemma CarveOutBelowDdrOnSmallDram(c: Consts, ddrSize: nat)
    requires ddrSize < c.ddrSSize + c.ddrShmemSize <= c.ddrBase + ddrSize
    requires c.ddrBase < WORD
    ensures SecureDdrBase(c, ddrSize) < c.ddrBase
  {
  }
}

=== FILE: post_load.dfy ===
/**
 * The OP-TEE post-load hook of the BL2 stage: after each image is loaded, the
 * loader hands its identifier to the platform, which completes the descriptors
 * of the secure payload (BL32, its pager and its paged part) and links BL32's
 * return address to the normal-world entry point (BL33).
 */
module PostLoad {
  import opened Common
  import MemoryMap

  datatype ImageId =
    | Bl32              // BL32_IMAGE_ID: the OP-TEE header image
    | Bl32Extra1        // BL32_EXTRA1_IMAGE_ID: the OP-TEE pager
    | Bl32Extra2        // BL32_EXTRA2_IMAGE_ID: the OP-TEE paged part
    | Bl33              // BL33_IMAGE_ID: the normal-world loader
    | OtherImage(id: nat)

  /** The first three entry arguments; the others are carried through untouched. */
  datatype Args = Args(arg0: nat, arg1: nat, arg2: nat, others: seq<nat>)

  /** The part of `entry_point_info_t` the hook reads or writes. */
  datatype EntryPoint = EntryPoint(pc: nat, lrSvc: nat, args: Args)

  /** The part of `image_info_t` the hook reads or writes. */
  datatype ImageInfo = ImageInfo(imageBase: nat, imageMaxSize: nat)

  /** One `bl_mem_params_node_t`. */
  datatype MemParams = MemParams(ep: EntryPoint, image: ImageInfo)

  /** The loader's descriptors, by image; a missing key is a missing descriptor. */
  type Registry = map<ImageId, MemParams>

  /**
   * What `parse_optee_header` answers: an error code, and the three structures it
   * may rewrite (the BL32 entry point, the pager and the paged image information).
   */
  datatype ParseResult = ParseResult(err: int, ep: EntryPoint, pager: ImageInfo, paged: ImageInfo)

  /** The OP-TEE header parser; its internals are not part of this model. */
  type Parser = (EntryPoint, ImageInfo, ImageInfo) -> ParseResult

  datatype HaltReason =
    | MissingDescriptor(id: ImageId)  // a failed `assert(... != NULL)`
    | HeaderParseError(err: int)      // "OPTEE header parse error", then panic

  /** The hook either returns a status with the updated descriptors or halts the stage. */
  datatype Handled = Returned(registry: Registry, status: int) | Halted(reason: HaltReason)

  /** The descriptors the hook needs for an image. */
  function Needs(id: ImageId): set<ImageId> {
    match id
    case Bl32 => {Bl32, Bl32Extra1, Bl32Extra2}
    case Bl33 => {Bl33, Bl32}
    case _ => {id}
  }

  /** The descriptors the hook may rewrite for an image. */
  function Touches(id: ImageId): set<ImageId> {
    match id
    case Bl32 => {Bl32, Bl32Extra1, Bl32Extra2}
    case Bl33 => {Bl32}
    case _ => {}
  }

  /** What BL2 tells the parser before it reads the header: the pager and paged load areas. */
  function PagerArea(c: Consts, pager: ImageInfo): ImageInfo {
    pager.(imageBase := c.opteeBase, imageMaxSize := c.opteeSize)
  }

  /**
   * The paged part's load address: the DRAM size less both reserved areas, then
   * offset by the DDR base, each step wrapping as 32-bit unsigned arithmetic does.
   */
  function PagedBase(c: Consts, ddrSize: nat): nat {
    U32(c.ddrBase + U32(U32(ddrSize - c.ddrSSize) - c.ddrShmemSize))
  }

  function PagedArea(c: Consts, ddrSize: nat, paged: ImageInfo): ImageInfo {
    paged.(imageBase := PagedBase(c, ddrSize), imageMaxSize := c.ddrSSize)
  }

  /** OP-TEE's boot arguments: enter at the pager, paged part in r0, r1 unused, no device tree in r2. */
  function OpteeEntry(p: ParseResult): EntryPoint {
    p.ep.(pc := p.pager.imageBase, args := p.ep.args.(arg0 := p.paged.imageBase, arg1 := 0, arg2 := 0))
  }

  /** The parser's verdict on the loaded BL32 header, given the areas BL2 filled in. */
  function HeaderParse(c: Consts, ddrSize: nat, parse: Parser, reg: Registry): ParseResult
    requires Bl32 in reg && Bl32Extra1 in reg && Bl32Extra2 in reg
  {
    parse(reg[Bl32].ep.(pc := reg[Bl32].image.imageBase),
          PagerArea(c, reg[Bl32Extra1].image), PagedArea(c, ddrSize, reg[Bl32Extra2].image))
  }

  /** The BL32 case: fill in the load areas, parse the header, set OP-TEE's entry point. */
  function LoadedBl32(c: Consts, ddrSize: nat, parse: Parser, reg: Registry): (h: Handled)
    requires Bl32 in reg
    ensures h.Halted? <==>
              Bl32Extra1 !in reg || Bl32Extra2 !in reg || HeaderParse(c, ddrSize, parse, reg).err != 0
    ensures h.Returned? ==> h.status == 0 && h.registry.Keys == reg.Keys
    // OP-TEE enters at its pager, with the paged part's address in r0 and zero in r1 and r2
    ensures h.Returned? ==>
              var ep := h.registry[Bl32].ep;
              && ep.pc == h.registry[Bl32Extra1].image.imageBase
              && ep.args.arg0 == h.registry[Bl32Extra2].image.imageBase
              && ep.args.arg1 == 0 && ep.args.arg2 == 0
    // the descriptors end as the header parser left them: the pager and paged areas it
    // returned, with their entry points untouched; its entry point otherwise, and BL32's
    // own image information untouched
    ensures h.Returned? ==>
              var p := HeaderParse(c, ddrSize, parse, reg);
              && h.registry[Bl32Extra1] == reg[Bl32Extra1].(image := p.pager)
              && h.registry[Bl32Extra2] == reg[Bl32Extra2].(image := p.paged)
              && h.registry[Bl32].ep.pc == p.pager.imageBase
              && h.registry[Bl32].ep.args.arg0 == p.paged.imageBase
              && h.registry[Bl32].ep.lrSvc == p.ep.lrSvc
              && h.registry[Bl32].ep.args.others == p.ep.args.others
              && h.registry[Bl32].image == reg[Bl32].image
  {
    if Bl32Extra1 !in reg then Halted(MissingDescriptor(Bl32Extra1))
    else if Bl32Extra2 !in reg then Halted(MissingDescriptor(Bl32Extra2))
    else
      var p := HeaderParse(c, ddrSize, parse, reg);
      if p.err != 0 then Halted(HeaderParseError(p.err))
      else
        Returned(reg[Bl32 := reg[Bl32].(ep := OpteeEntry(p))]
                    [Bl32Extra1 := reg[Bl32Extra1].(image := p.pager)]
                    [Bl32Extra2 := reg[Bl32Extra2].(image := p.paged)], 0)
  }

  /** The BL33 case: BL32 returns to where BL33 starts. */
  function LinkedBl33(reg: Registry): (h: Handled)
    requires Bl33 in reg
    ensures h.Halted? <==> Bl32 !in reg
    ensures h.Returned? ==> h.status == 0 && h.registry.Keys == reg.Keys
    ensures h.Returned? ==> h.registry[Bl32].ep.lrSvc == reg[Bl33].ep.pc
  {
    if Bl32 !in reg then Halted(MissingDescriptor(Bl32))
    else Returned(reg[Bl32 := reg[Bl32].(ep := reg[Bl32].ep.(lrSvc := reg[Bl33].ep.pc))], 0)
  }

  /** `bl2_plat_handle_post_image_load` of the OP-TEE build. */
  function PostImageLoad(c: Consts, ddrSize: nat, parse: Parser, reg: Registry, id: ImageId): (h: Handled)
    // it halts exactly when a descriptor it needs is missing or the header does not parse
    ensures h.Halted? && h.reason.MissingDescriptor? <==> exists k :: k in Needs(id) && k !in reg
    ensures h.Halted? && h.reason.MissingDescriptor? ==> h.reason.id in Needs(id) && h.reason.id !in reg
    ensures h.Halted? && h.reason.HeaderParseError? <==>
              id == Bl32 && Needs(Bl32) <= reg.Keys && HeaderParse(c, ddrSize, parse, reg).err != 0
    ensures h.Halted? && h.reason.HeaderParseError? ==> h.reason.err == HeaderParse(c, ddrSize, parse, reg).err
    // when it returns, it returns success, with the same descriptors, rewriting only its own
    ensures h.Returned? ==> h.status == 0
    ensures h.Returned? ==> h.registry.Keys == reg.Keys
    ensures h.Returned? ==> forall k :: k in reg && k !in Touches(id) ==> h.registry[k] == reg[k]
    // for BL32, OP-TEE's descriptors are the ones the header parser returned; the pager
    // and paged parts get only their image information rewritten
    ensures h.Returned? && id == Bl32 ==>
              var p := HeaderParse(c, ddrSize, parse, reg);
              && h.registry[Bl32Extra1] == reg[Bl32Extra1].(image := p.pager)
              && h.registry[Bl32Extra2] == reg[Bl32Extra2].(image := p.paged)
              && h.registry[Bl32].ep.pc == p.pager.imageBase
              && h.registry[Bl32].ep.args == Args(p.paged.imageBase, 0, 0, p.ep.args.others)
              && h.registry[Bl32].ep.lrSvc == p.ep.lrSvc
              && h.registry[Bl32].image == reg[Bl32].image
    // for BL33, BL32 returns to BL33's entry point
    ensures h.Returned? && id == Bl33 ==> h.registry[Bl32].ep.lrSvc == reg[Bl33].ep.pc
  {
    if id !in reg then Halted(MissingDescriptor(id))
    else
      match id
      case Bl32 => LoadedBl32(c, ddrSize, parse, reg)
      case Bl33 => LinkedBl33(reg)
      case _ => Returned(reg, 0)
  }

  // ---------------------------------------------------------------------------
  // Properties
  // ---------------------------------------------------------------------------

  /** Reducing an addend modulo 2^32 does not change a 32-bit sum. */
  lemma {:induction false} U32AbsorbsAddend(x: int, y: int)
    ensures U32(x + U32(y)) == U32(x + y)
  {
    ShiftMod(x + y, y / WORD);
  }

  /** Reducing a minuend modulo 2^32 does not change a 32-bit difference. */
  lemma {:induction false} U32AbsorbsMinuend(y: int, x: int)
    ensures U32(U32(y) - x) == U32(y - x)
  {
    ShiftMod(y - x, y / WORD);
  }

  lemma {:induction false} ShiftMod(z: int, k: int)
    ensures (z - k * WORD) % WORD == z % WORD
  {
    var q := z / WORD;
    assert z == q * WORD + z % WORD;
    assert z - k * WORD == (q - k) * WORD + z % WORD;
  }

  /**
   * The paged part goes exactly where the address map put the secure carve-out,
   * although the two compute the address in a different order.
   */
  lemma PagedBaseIsCarveOut(c: Consts, ddrSize: nat)
    ensures PagedBase(c, ddrSize) == MemoryMap.SecureDdrBase(c, ddrSize)
    ensures PagedBase(c, ddrSize) == MemoryMap.SecureDdrRegion(c, ddrSize).pa
  {
    var free := ddrSize - c.ddrSSize - c.ddrShmemSize;
    U32AbsorbsMinuend(ddrSize - c.ddrSSize, c.ddrShmemSize);
    U32AbsorbsAddend(c.ddrBase, free);
    assert c.ddrBase + ddrSize - c.ddrSSize - c.ddrShmemSize == c.ddrBase + free;
  }

  /**
   * The parser sees BL32's entry point set to its load address, the pager area at
   * STM32MP_OPTEE_BASE and the paged area at the secure carve-out, each sized to
   * its reserved area.
   */
  lemma ParserSeesLoadAreas(c: Consts, ddrSize: nat, parse: Parser, reg: Registry)
    requires Needs(Bl32) <= reg.Keys
    ensures HeaderParse(c, ddrSize, parse, reg) ==
              parse(reg[Bl32].ep.(pc := reg[Bl32].image.imageBase),
                    ImageInfo(c.opteeBase, c.opteeSize),
                    ImageInfo(MemoryMap.SecureDdrBase(c, ddrSize), c.ddrSSize))
  {
    PagedBaseIsCarveOut(c, ddrSize);
  }

  /**
   * Both load areas BL2 hands to the parser are regions the OP-TEE build maps
   * secure and writable, with the same base and size.
   */
  lemma LoadAreasAreMapped(c: Consts, ddrSize: nat, pager: ImageInfo, paged: ImageInfo)
    ensures var rs := MemoryMap.Regions(c, Config(true), ddrSize);
            var a := PagerArea(c, pager);
            exists i :: 0 <= i < |rs| && rs[i].pa == a.imageBase && rs[i].size == a.imageMaxSize
                        && rs[i].attr == MemoryMap.MemSecureRw
    ensures var rs := MemoryMap.Regions(c, Config(true), ddrSize);
            var a := PagedArea(c, ddrSize, paged);
            exists i :: 0 <= i < |rs| && rs[i].pa == a.imageBase && rs[i].size == a.imageMaxSize
                        && rs[i].attr == MemoryMap.MemSecureRw
  {
    var rs := MemoryMap.Regions(c, Config(true), ddrSize);
    PagedBaseIsCarveOut(c, ddrSize);
    assert rs[2] == MemoryMap.OpteeRegion(c);
    assert rs[1] == MemoryMap.SecureDdrRegion(c, ddrSize);
  }

  /** A parser that accepts the header and moves neither load area. */
  ghost predicate KeepsAreas(parse: Parser) {
    forall ep, pager, paged :: parse(ep, pager, paged) == ParseResult(0, ep, pager, paged)
  }

  /**
   * With such a header, OP-TEE enters at STM32MP_OPTEE_BASE with the secure
   * carve-out's base in r0, and its return address is left as it was.
   */
  lemma FixedLayoutHandOff(c: Consts, ddrSize: nat, parse: Parser, reg: Registry)
    requires KeepsAreas(parse)
    requires Needs(Bl32) <= reg.Keys
    ensures var h := PostImageLoad(c, ddrSize, parse, reg, Bl32);
            && h.Returned?
            && h.registry[Bl32].ep.pc == c.opteeBase
            && h.registry[Bl32].ep.args.arg0 == MemoryMap.SecureDdrBase(c, ddrSize)
            && h.registry[Bl32].ep.lrSvc == reg[Bl32].ep.lrSvc
            && h.registry[Bl32Extra1].image == ImageInfo(c.opteeBase, c.opteeSize)
            && h.registry[Bl32Extra2].image == ImageInfo(MemoryMap.SecureDdrBase(c, ddrSize), c.ddrSSize)
  {
    var ep := reg[Bl32].ep.(pc := reg[Bl32].image.imageBase);
    var p := HeaderParse(c, ddrSize, parse, reg);
    assert p == ParseResult(0, ep, PagerArea(c, reg[Bl32Extra1].image), PagedArea(c, ddrSize, reg[Bl32Extra2].image));
    PagedBaseIsCarveOut(c, ddrSize);
  }

  /**
   * Handling BL32 and then BL33, as the loader does, leaves OP-TEE entering at its
   * pager with the paged part in r0, zero in r1 and r2, and returning into BL33.
   */
  lemma Bl32ThenBl33(c: Consts, ddrSize: nat, parse: Parser, reg: Registry)
    requires Needs(Bl32) + Needs(Bl33) <= reg.Keys
    requires HeaderParse(c, ddrSize, parse, reg).err == 0
    ensures var h1 := PostImageLoad(c, ddrSize, parse, reg, Bl32);
            && h1.Returned?
            && var h2 := PostImageLoad(c, ddrSize, parse, h1.registry, Bl33);
            && h2.Returned?
            && h2.registry.Keys == reg.Keys
            && h2.registry[Bl33] == reg[Bl33]
            && var ep := h2.registry[Bl32].ep;
            && ep.lrSvc == reg[Bl33].ep.pc
            && ep.pc == h2.registry[Bl32Extra1].image.imageBase
            && ep.args.arg0 == h2.registry[Bl32Extra2].image.imageBase
            && ep.args.arg1 == 0 && ep.args.arg2 == 0
  {
    var h1 := PostImageLoad(c, ddrSize, parse, reg, Bl32);
    assert Bl33 !in Touches(Bl32);
    assert h1.registry[Bl33] == reg[Bl33];
    var h2 := PostImageLoad(c, ddrSize, parse, h1.registry, Bl33);
    assert Bl32Extra1 !in Touches(Bl33) && Bl32Extra2 !in Touches(Bl33);
    assert h2.registry[Bl32].ep == h1.registry[Bl32].ep.(lrSvc := reg[Bl33].ep.pc);
  }

  /** For BL33, the only change anywhere is BL32's return address. */
  lemma Bl33OnlyLinks(c: Consts, ddrSize: nat, parse: Parser, reg: Registry)
    ensures var h := PostImageLoad(c, ddrSize, parse, reg, Bl33);
            h.Returned? ==>
              && h.registry[Bl32].image == reg[Bl32].image
              && h.registry[Bl32].ep.(lrSvc := reg[Bl32].ep.lrSvc) == reg[Bl32].ep
              && forall k :: k in reg && k != Bl32 ==> h.registry[k] == reg[k]
  {
  }

  /** Handling BL33 a second time changes nothing more. */
  lemma Bl33Idempotent(c: Consts, ddrSize: nat, parse: Parser, reg: Registry)
    ensures var h := PostImageLoad(c, ddrSize, parse, reg, Bl33);
            h.Returned? ==> PostImageLoad(c, ddrSize, parse, h.registry, Bl33) == h
  {
  }

  /** The pager, the paged part and every other image need no post-load work. */
  lemma OtherImagesUntouched(c: Consts, ddrSize: nat, parse: Parser, reg: Registry, id: ImageId)
    requires id != Bl32 && id != Bl33
    ensures PostImageLoad(c, ddrSize, parse, reg, id) ==
              if id in reg then Returned(reg, 0) else Halted(MissingDescriptor(id))
  {
  }
}

=== FILE: reset_reason.dfy ===
/**
 * The reset-cause decoder of the BL2 stage: a first-match classification of the
 * RCC_MP_RSTSCLRR status register into exactly one diagnostic line.
 */
module ResetReason {
  import opened Common

  /** The status flags of RCC_MP_RSTSCLRR that the decoder recognises. */
  datatype Flag =
    | PadRst     // PADRSTF: pad reset from NRST
    | StdbyRst   // STDBYRSTF: system exits STANDBY
    | CstdbyRst  // CSTDBYRSTF: MPU exits CSTANDBY
    | PorRst     // PORRSTF
    | BorRst     // BORRSTF
    | McSysRst   // MCSYSRSTF
    | MpSysRst   // MPSYSRSTF
    | HcssRst    // HCSSRSTF
    | Iwdg1Rst   // IWDG1RSTF
    | Iwdg2Rst   // IWDG2RSTF
    | MpuP0Rst   // MPUP0RSTF
    | MpuP1Rst   // MPUP1RSTF
    | VcoreRst   // VCORERSTF

  /**
   * A 32-bit status value, abstracted over its (unmodelled) bit layout: the set of
   * recognised flags that are set, and whether any other bit is set. The value is
   * zero exactly when neither holds.
   */
  datatype Rstsr = Rstsr(flags: set<Flag>, otherBits: bool)

  predicate IsZero(s: Rstsr) {
    s.flags == {} && !s.otherBits
  }

  /** One diagnostic line per boot. */
  datatype Cause =
    | Unknown             // register reads zero
    | StandbyExit
    | CStandbyExit
    | PowerOn
    | Brownout
    | McuSystemReset      // MCSYSRST while PADRSTF is set
    | McuLocalReset       // MCSYSRST while PADRSTF is clear
    | MpuSystemReset
    | HseClockFailure
    | Iwdg1Reset
    | Iwdg2Reset
    | MpuProcessor0Reset
    | MpuProcessor1Reset
    | PadReset
    | VcoreFailure
    | Unidentified        // nonzero, but no recognised flag

  /** The flag whose presence a cause reports, if any. */
  function Indicator(c: Cause): Option<Flag> {
    match c
    case Unknown => None
    case Unidentified => None
    case StandbyExit => Some(StdbyRst)
    case CStandbyExit => Some(CstdbyRst)
    case PowerOn => Some(PorRst)
    case Brownout => Some(BorRst)
    case McuSystemReset => Some(McSysRst)
    case McuLocalReset => Some(McSysRst)
    case MpuSystemReset => Some(MpSysRst)
    case HseClockFailure => Some(HcssRst)
    case Iwdg1Reset => Some(Iwdg1Rst)
    case Iwdg2Reset => Some(Iwdg2Rst)
    case MpuProcessor0Reset => Some(MpuP0Rst)
    case MpuProcessor1Reset => Some(MpuP1Rst)
    case PadReset => Some(PadRst)
    case VcoreFailure => Some(VcoreRst)
  }

  /** The decoder as the boot stage runs it: a chain of tests, the first hit wins. */
  function Classify(s: Rstsr): (c: Cause)
    // zero is "unknown"; nonzero without a recognised flag is "unidentified"
    ensures c == Unknown <==> IsZero(s)
    ensures c == Unidentified <==> s.flags == {} && s.otherBits
    // the standby flags are consulted only while PADRSTF is clear
    ensures PadRst !in s.flags && StdbyRst in s.flags ==> c == StandbyExit
    ensures PadRst !in s.flags && StdbyRst !in s.flags && CstdbyRst in s.flags ==> c == CStandbyExit
    ensures PadRst in s.flags ==> c != StandbyExit && c != CStandbyExit
    // MCSYSRST is a system reset with PADRSTF set, a local one without
    ensures c == McuSystemReset ==> PadRst in s.flags
    ensures c == McuLocalReset ==> PadRst !in s.flags
    // a reported cause always reports a flag that is actually set
    ensures Indicator(c).Some? ==> Indicator(c).value in s.flags
  {
    if IsZero(s) then Unknown
    else if PadRst !in s.flags && StdbyRst in s.flags then StandbyExit
    else if PadRst !in s.flags && CstdbyRst in s.flags then CStandbyExit
    else if PorRst in s.flags then PowerOn
    else if BorRst in s.flags then Brownout
    else if McSysRst in s.flags then
      (if PadRst in s.flags then McuSystemReset else McuLocalReset)
    else if MpSysRst in s.flags then MpuSystemReset
    else if HcssRst in s.flags then HseClockFailure
    else if Iwdg1Rst in s.flags then Iwdg1Reset
    else if Iwdg2Rst in s.flags then Iwdg2Reset
    else if MpuP0Rst in s.flags then MpuProcessor0Reset
    else if MpuP1Rst in s.flags then MpuProcessor1Reset
    else if PadRst in s.flags then PadReset
    else if VcoreRst in s.flags then VcoreFailure
    else NoFlagSet(s.flags); Unidentified
  }

  /** Every flag is one of the thirteen the decoder tests. */
  lemma NoFlagSet(flags: set<Flag>)
    requires PorRst !in flags && BorRst !in flags && McSysRst !in flags && MpSysRst !in flags
    requires HcssRst !in flags && Iwdg1Rst !in flags && Iwdg2Rst !in flags
    requires MpuP0Rst !in flags && MpuP1Rst !in flags && PadRst !in flags && VcoreRst !in flags
    requires StdbyRst !in flags && CstdbyRst !in flags
    ensures flags == {}
  {
    forall x | x in flags ensures false {
      match x
      case PadRst => case StdbyRst => case CstdbyRst => case PorRst => case BorRst =>
      case McSysRst => case MpSysRst => case HcssRst => case Iwdg1Rst => case Iwdg2Rst =>
      case MpuP0Rst => case MpuP1Rst => case VcoreRst =>
    }
  }

  /** The log severity of each cause: a warning for "unknown", an error for "unidentified". */
  function LevelOf(c: Cause): Level {
    if c == Unknown then Warn
    else if c == Unidentified then Error
    else Info
  }

  /** What the decoder logs for a status value. It reports and never halts. */
  function Report(s: Rstsr): (r: (Level, Cause))
    ensures r.1 == Classify(s)
    ensures r.0 == Warn <==> IsZero(s)
    ensures r.0 == Error <==> s.flags == {} && s.otherBits
    ensures r.0 != Notice
  {
    (LevelOf(Classify(s)), Classify(s))
  }

  // ---------------------------------------------------------------------------
  // An independent reference: a flag's rank in the priority order, and "first
  // match" as the eligible flag of least rank.
  // ---------------------------------------------------------------------------

  /** Position of each flag in the decoder's priority order, highest priority first. */
  function Rank(f: Flag): nat {
    match f
    case StdbyRst => 0
    case CstdbyRst => 1
    case PorRst => 2
    case BorRst => 3
    case McSysRst => 4
    case MpSysRst => 5
    case HcssRst => 6
    case Iwdg1Rst => 7
    case Iwdg2Rst => 8
    case MpuP0Rst => 9
    case MpuP1Rst => 10
    case PadRst => 11
    case VcoreRst => 12
  }

  /** A set flag counts, except that the standby flags are masked while PADRSTF is set. */
  predicate Eligible(s: Rstsr, f: Flag) {
    f in s.flags && (f == StdbyRst || f == CstdbyRst ==> PadRst !in s.flags)
  }

  /** `f` is the eligible flag of least rank. */
  predicate FirstMatch(s: Rstsr, f: Flag) {
    Eligible(s, f) && forall g :: Eligible(s, g) ==> Rank(f) <= Rank(g)
  }

  /** The cause a flag stands for; MCSYSRST depends on PADRSTF. */
  function CauseOf(f: Flag, pad: bool): Cause {
    match f
    case PorRst => PowerOn
    case BorRst => Brownout
    case McSysRst => if pad then McuSystemReset else McuLocalReset
    case MpSysRst => MpuSystemReset
    case HcssRst => HseClockFailure
    case Iwdg1Rst => Iwdg1Reset
    case Iwdg2Rst => Iwdg2Reset
    case MpuP0Rst => MpuProcessor0Reset
    case MpuP1Rst => MpuProcessor1Reset
    case PadRst => PadReset
    case VcoreRst => VcoreFailure
    case StdbyRst => StandbyExit
    case CstdbyRst => CStandbyExit
  }

  /**
   * The if-chain decoder reports the cause of the eligible flag of least rank.
   */
  lemma ClassifyIsFirstMatch(s: Rstsr, f: Flag)
    requires FirstMatch(s, f)
    ensures Classify(s) == CauseOf(f, PadRst in s.flags)
  {
    // every flag of lower rank is not eligible, so the chain reaches the test of `f`
    match f
    case StdbyRst =>
    case CstdbyRst =>
      assert !Eligible(s, StdbyRst);
    case PorRst =>
      assert !Eligible(s, StdbyRst) && !Eligible(s, CstdbyRst);
    case BorRst =>
      assert !Eligible(s, StdbyRst) && !Eligible(s, CstdbyRst) && !Eligible(s, PorRst);
    case McSysRst =>
      assert !Eligible(s, StdbyRst) && !Eligible(s, CstdbyRst) && !Eligible(s, PorRst) &&
        !Eligible(s, BorRst);
    case MpSysRst =>
      assert !Eligible(s, StdbyRst) && !Eligible(s, CstdbyRst) && !Eligible(s, PorRst) &&
        !Eligible(s, BorRst) && !Eligible(s, McSysRst);
    case HcssRst =>
      assert !Eligible(s, StdbyRst) && !Eligible(s, CstdbyRst) && !Eligible(s, PorRst) &&
        !Eligible(s, BorRst) && !Eligible(s, McSysRst) && !Eligible(s, MpSysRst);
    case Iwdg1Rst =>
      assert !Eligible(s, StdbyRst) && !Eligible(s, CstdbyRst) && !Eligible(s, PorRst) &&
        !Eligible(s, BorRst) && !Eligible(s, McSysRst) && !Eligible(s, MpSysRst) &&
        !Eligible(s, HcssRst);
    case Iwdg2Rst =>
      assert !Eligible(s, StdbyRst) && !Eligible(s, CstdbyRst) && !Eligible(s, PorRst) &&
        !Eligible(s, BorRst) && !Eligible(s, McSysRst) && !Eligible(s, MpSysRst) &&
        !Eligible(s, HcssRst) && !Eligible(s, Iwdg1Rst);
    case MpuP0Rst =>
      assert !Eligible(s, StdbyRst) && !Eligible(s, CstdbyRst) && !Eligible(s, PorRst) &&
        !Eligible(s, BorRst) && !Eligible(s, McSysRst) && !Eligible(s, MpSysRst) &&
        !Eligible(s, HcssRst) && !Eligible(s, Iwdg1Rst) && !Eligible(s, Iwdg2Rst);
    case MpuP1Rst =>
      assert !Eligible(s, StdbyRst) && !Eligible(s, CstdbyRst) && !Eligible(s, PorRst) &&
        !Eligible(s, BorRst) && !Eligible(s, McSysRst) && !Eligible(s, MpSysRst) &&
        !Eligible(s, HcssRst) && !Eligible(s, Iwdg1Rst) && !Eligible(s, Iwdg2Rst) &&
        !Eligible(s, MpuP0Rst);
    case PadRst =>
      assert !Eligible(s, StdbyRst) && !Eligible(s, CstdbyRst) && !Eligible(s, PorRst) &&
        !Eligible(s, BorRst) && !Eligible(s, McSysRst) && !Eligible(s, MpSysRst) &&
        !Eligible(s, HcssRst) && !Eligible(s, Iwdg1Rst) && !Eligible(s, Iwdg2Rst) &&
        !Eligible(s, MpuP0Rst) && !Eligible(s, MpuP1Rst);
    case VcoreRst =>
      assert !Eligible(s, StdbyRst) && !Eligible(s, CstdbyRst) && !Eligible(s, PorRst) &&
        !Eligible(s, BorRst) && !Eligible(s, McSysRst) && !Eligible(s, MpSysRst) &&
        !Eligible(s, HcssRst) && !Eligible(s, Iwdg1Rst) && !Eligible(s, Iwdg2Rst) &&
        !Eligible(s, MpuP0Rst) && !Eligible(s, MpuP1Rst) && !Eligible(s, PadRst);
  }

  /** The decoder reports "unknown" or "unidentified" exactly when no flag is eligible. */
  lemma NoEligibleFlag(s: Rstsr)
    ensures (forall g :: !Eligible(s, g)) <==> Classify(s) in {Unknown, Unidentified}
  {
    if forall g :: !Eligible(s, g) {
      assert !Eligible(s, StdbyRst);
      assert !Eligible(s, CstdbyRst);
      assert !Eligible(s, PorRst);
      assert !Eligible(s, BorRst);
      assert !Eligible(s, McSysRst);
      assert !Eligible(s, MpSysRst);
      assert !Eligible(s, HcssRst);
      assert !Eligible(s, Iwdg1Rst);
      assert !Eligible(s, Iwdg2Rst);
      assert !Eligible(s, MpuP0Rst);
      assert !Eligible(s, MpuP1Rst);
      assert !Eligible(s, PadRst);
      assert !Eligible(s, VcoreRst);
      NoFlagSet(s.flags);
    }
  }

  /** The cause reported when `f` is the only bit set in the register. */
  function SoleCause(f: Flag): Cause {
    CauseOf(f, f == PadRst)
  }

  /** With exactly one recognised bit set, the decoder names that bit and no other. */
  lemma SingleFlag(f: Flag)
    ensures Classify(Rstsr({f}, false)) == SoleCause(f)
    ensures Indicator(SoleCause(f)) == Some(f)
  {
  }

  /** While PADRSTF is set, clearing either standby flag changes nothing. */
  lemma StandbyIgnoredUnderPad(s: Rstsr)
    requires PadRst in s.flags
    ensures Classify(s) == Classify(Rstsr(s.flags - {StdbyRst, CstdbyRst}, s.otherBits))
  {
  }

  /** While PADRSTF is clear, STDBYRSTF decides the outcome whatever else is set. */
  lemma StandbyDominates(s: Rstsr, extra: set<Flag>)
    requires PadRst !in s.flags + extra && StdbyRst in s.flags
    ensures Classify(Rstsr(s.flags + extra, s.otherBits)) == StandbyExit
  {
  }
}
